=== FILE: README.md ===
# jsonxx in Dafny

A model of `jsonxx.cc`, the implementation file of the small C++ JSON
library jsonxx. It covers the recursive-descent parser, the canonical JSON
serialiser and the XML serialiser, with proofs about each.

## The parser

The parser reads a `std::istream`. The model represents the stream as the
whole input `s: string` plus a cursor. Every parse step returns
`Parsed<T> = Ok(value, next) | Fail(next)`. A failure also reports where it
left the cursor, because jsonxx's callers carry on from wherever a failed
attempt left the stream. When a read runs off the end of the input, its `putback` calls are refused,
so the stream is left at the end. A later `clear()` in `parse_number`
resets the stream's flags but not its position. The model shows this as a
cursor at `|s|`, where every later token fails too.

Every parser member reads its tokens through `Tokens.Match`. That is the
corrected `match` of the one finding below, not the loop as written. The
two differ only when the input ends one character short of `null`. On
`nul` jsonxx as written reads `null`, while the model's parser fails.

| File | Module | What it models |
|---|---|---|
| `tokens.dfy` | `Tokens` | `input >> std::ws` and `match` |
| `scalars.dfy` | `Scalars` | `parse_string`, `parse_number`, `parse_bool` and `parse_null` |
| `parser.dfy` | `Parser` | `Value::parse`, `Array::parse` and `Object::parse` |

`settings::strict` is a field of `Parser.Settings`. So is the platform's
numeric conversion (`input >> double`). The conversion is a `Scalars.Scanner`: a
function of the input and the cursor that stays inside the input. When it
succeeds it consumes at least one character. It consumes nothing where no
number can begin, which is how libstdc++'s `num_get` behaves: it gathers
only signs, digits and the decimal point before a number has begun.

`values.dfy` (module `JsonValue`) holds the tree that parsing builds, which
is jsonxx's Value, Array and Object. An object is a list of members with
strictly ascending keys, like the `std::map` behind it. `JsonValue.Put` is
the map's `operator[]` assignment, so the last write of a key wins.

## The JSON writer and the round trip

`writer.dfy` (module `JsonWriter`) models `stream_string` and the three
`operator<<` overloads. Numbers are printed by the platform; the model
passes that printer in as `show`.

`roundtrip.dfy` (module `RoundTrip`) proves that parsing `render(v)` gives
back `v`, in strict and in lenient mode, with each number replaced by the
number its printout reads back as (`RoundTrip.Back`). This holds for every
value whose keys are in order and whose strings use only the characters
the writer escapes reversibly. It also needs each number in `v` to print as
text that the conversion reads back as a number, stopping at the end of
the printout (`RoundTrip.ReadsBack`). The printer need not be exact:
`ostream << double` prints six significant digits by default, so
`0.1234567` comes back as `0.123457`. `RoundTrip.LossyRoundTrip` shows the
theorem applies to a printer that writes every number alike. When every
number reads back as itself, the value comes back unchanged
(`RoundTrip.ExactRoundTrip`).

## Lenient-mode behaviour

`parser_props.dfy` (module `ParserFacts`) states what the parser does with
input the writer never produces:

- trailing commas and elided elements (`[1,,2]` reads a `null` in between
  when not strict);
- repeated and unordered keys;
- single quotes, and the escape table;
- missing closing brackets;
- the places where a failed alternative leaves the stream for the next
  one (`[true {}` reads as an empty object).

Each behaviour is stated once as a general lemma and again on a concrete
input.

## The XML writer

`xml.dfy` (module `Xml`) models the JSONx and JXML dialects: `escape_string`,
`escape_tag`, `open_tag`, `close_tag`, `tag`, and the root wrappers
`Object::xml` and `Array::xml`.

The writer escapes only `<` and `>` in text. It does not escape `&`, so the
texts `<` and `&lt;` produce the same element (`Xml.AmpersandCollides`). It
escapes names for attributes with backslashes before quotes, which is not
XML's own escaping. Even so, this escaping can be undone exactly
(`Xml.EscapeStringRoundTrip`).

Neither escape touches a newline. A newline in a string value, a key or a
printed number therefore starts a new line of output with no tabs in front
of it (`Xml.NewlineBreaksIndent`). The indentation lemmas hold only for
text without newlines (`Xml.OneLine`).

`JSONXX_XML_TAG` is a build-time constant of `jsonxx.h`, so the model
passes it in as `xmlTag`.

## Model

| member | source | states |
|---|---|---|
| JsonValue.LessIrreflexive | jsonxx.cc:346-348 | no key is ordered before itself |
| JsonValue.LessTransitive | jsonxx.cc:346-348 | the key order is transitive |
| JsonValue.LessTotal | jsonxx.cc:346-348 | any two distinct keys are ordered one way or the other |
| JsonValue.LessAsymmetric | jsonxx.cc:346-348 | two keys are never ordered both ways |
| JsonValue.PutLookup | jsonxx.cc:166 | after a store, the key finds the new value and every other key finds what it found before (last write wins) |
| JsonValue.PutFrom | jsonxx.cc:166 | a store adds no entry other than the stored one |
| JsonValue.PutSorted | jsonxx.cc:166 | a store keeps the keys strictly ascending |
| JsonValue.PutAbove | jsonxx.cc:166 | storing a key above every present key appends it at the end |
| JsonValue.PutWellFormed | jsonxx.cc:166 | storing a well-formed value keeps the object well-formed at every depth |
| Tokens.SkipWs | jsonxx.cc:22 | skipping whitespace stops at the end of the input or at a character that is not whitespace |
| Tokens.SkippedAreSpaces | jsonxx.cc:22 | everything skipped is whitespace |
| Tokens.SkipWsTo | jsonxx.cc:22 | skipping stops exactly at the first character that is not whitespace |
| Tokens.Agree | jsonxx.cc:25-37 | the matched prefix stays within the pattern and the input |
| Tokens.AgreeMeans | jsonxx.cc:25-37 | the characters passed match the pattern, and the loop stops at the pattern's end, the input's end or a mismatch |
| Tokens.Match | jsonxx.cc:21-39 | a success leaves the cursor exactly the pattern's length after the skipped whitespace, and a failure never moves it back before that point |
| Tokens.MatchMeans | jsonxx.cc:21-39 | a match succeeds exactly when the pattern follows the whitespace; a failure that moves the cursor is one where the input ran out inside the pattern |
| Tokens.MatchHere | jsonxx.cc:21-39 | a one-character token right at the cursor is consumed |
| Tokens.NoMatchHere | jsonxx.cc:21-39 | another character makes the match fail in place |
| Tokens.MatchedChar | jsonxx.cc:21-39 | a matched one-character token is the character just before the new cursor |
| Tokens.MatchLoop | jsonxx.cc:21-39 | the loop as written agrees with the match everywhere except where the input ends one character short of a pattern that ends in a doubled letter, which it accepts |
| Tokens.NulTakenForNull | jsonxx.cc:25-37 | on the input `nul` the loop as written accepts `null`, while the intended match fails |
| Scalars.ParseNumber | jsonxx.cc:120-128 | the number read lies after the whitespace and within the input |
| Scalars.NumberMeans | jsonxx.cc:120-128 | a number consumes at least one character, and where no number can begin the parse fails without consuming (the libstdc++ conversion) |
| Scalars.DecodeBody | jsonxx.cc:53-90 | the string body stays within the input |
| Scalars.DecodeBodyEnds | jsonxx.cc:53-96 | the body loop succeeds exactly when an unescaped delimiter follows, meaning one with an even run of backslashes in front of it; it then stops just after the first such delimiter, and otherwise fails at the end of the input |
| Scalars.ParseString | jsonxx.cc:41-96 | a string read starts after the whitespace and stays within the input |
| Scalars.StringMeans | jsonxx.cc:41-52 | without an opening quote the parse fails in place; strict mode accepts only a double quote and lenient mode also a single one; a string read ends with the quote that opened it |
| Scalars.ParseBool | jsonxx.cc:98-108 | the boolean read lies after the whitespace |
| Scalars.BoolMeans | jsonxx.cc:98-108 | the parse succeeds exactly on `true` or `false` after the whitespace, consuming 4 or 5 characters, and otherwise fails in place or at the end |
| Scalars.ParseNull | jsonxx.cc:110-118 | the null read lies after the whitespace |
| Scalars.NullMeans | jsonxx.cc:110-118 | with the corrected `match`, the parse succeeds exactly on `null`, or in lenient mode on a comma that it does not consume, and otherwise fails in place or at the end |
| Parser.ParseValue | jsonxx.cc:191-229 | a value read never moves the cursor backwards or past the input |
| Parser.ParseScalar | jsonxx.cc:194-213 | the scalar alternatives never move the cursor backwards or past the input |
| Parser.ParseArray | jsonxx.cc:240-260 | an array read stays within the input |
| Parser.Elements | jsonxx.cc:247-254 | the element loop stays within the input |
| Parser.ParseObject | jsonxx.cc:139-175 | an object read stays within the input |
| Parser.Members | jsonxx.cc:149-160 | the member loop stays within the input |
| Parser.MemberValue | jsonxx.cc:161-167 | the value part of a member stays within the input |
| Parser.ScalarFailsInPlace | jsonxx.cc:194-213 | where no scalar can begin, all four scalar alternatives fail without consuming anything |
| Parser.ArrayShape | jsonxx.cc:240-260 | an array read starts with `[` after the whitespace and ends with `]` |
| Parser.ObjectShape | jsonxx.cc:139-175 | an object read starts with `{` after the whitespace and ends with `}` |
| Parser.ValueWellFormed | jsonxx.cc:191-229 | every parsed value has its keys in ascending order at every depth |
| Parser.ArrayWellFormed | jsonxx.cc:240-260 | every element of a parsed array is well-formed |
| Parser.ElementsWellFormed | jsonxx.cc:247-254 | every element the loop reads is well-formed |
| Parser.ObjectWellFormed | jsonxx.cc:139-175 | a parsed object is well-formed |
| Parser.MembersWellFormed | jsonxx.cc:149-167 | the member loop keeps the object well-formed |
| Parser.MemberValueWellFormed | jsonxx.cc:161-167 | storing a parsed member keeps the object well-formed |
| JsonWriter.HexDigits | jsonxx.cc:294-296 | the padded hexadecimal field has exactly the field width, uses lower-case hex digits only, and denotes the number |
| JsonWriter.EscapeChar | jsonxx.cc:267-300 | a character is written as itself exactly when it is printable and not `"`, `\` or `/`; otherwise it becomes a backslash escape, and a control character other than the five named ones becomes `\u` and six zero-padded lower-case hex digits denoting its code |
| JsonWriter.Escaped | jsonxx.cc:265-301 | no control character is left in the escaped body, which is never shorter than the string |
| JsonWriter.StreamString | jsonxx.cc:262-304 | the written string is between double quotes |
| RoundTrip.EscapeStep | jsonxx.cc:267-300 | the escape written for a plain character decodes back to it |
| RoundTrip.StringRoundTrip | jsonxx.cc:53-90 | the escaped body of a plain string, followed by a quote, decodes to the string |
| RoundTrip.StreamStringRoundTrip | jsonxx.cc:262-304 | `parse_string` reads back exactly what `stream_string` wrote, in both modes |
| RoundTrip.RenderedStart | jsonxx.cc:308-328 | a rendered value, a number included when its printout reads back, starts with a non-space character that selects the alternative of `Value::parse` that reads it |
| RoundTrip.ScalarRoundTrip | jsonxx.cc:308-320 | a written scalar followed by a delimiter is read back; a number comes back as the number its printout reads as |
| RoundTrip.ArrayRoundTrip | jsonxx.cc:330-342 | `Array::parse` reads back a written array, each number as its printout reads back |
| RoundTrip.ObjectRoundTrip | jsonxx.cc:344-357 | `Object::parse` reads back a written object, each number as its printout reads back |
| RoundTrip.ValueRoundTrip | jsonxx.cc:308-328 | `Value::parse` reads back a written value found after whitespace and followed by a delimiter, each number as its printout reads back |
| RoundTrip.ElementsRoundTrip | jsonxx.cc:247-254 | the element loop reads back elements joined by `", "` and followed by `]`, each number as its printout reads back |
| RoundTrip.KeyRoundTrip | jsonxx.cc:149-160 | the member loop reads back a written key and its colon |
| RoundTrip.MembersRoundTrip | jsonxx.cc:149-167 | the member loop reads back written members, in order, followed by `}`, each number as its printout reads back |
| RoundTrip.MemberFirst | jsonxx.cc:149-167 | a written member followed by a comma is stored (its number as read back) before the rest of the loop |
| RoundTrip.RoundTrip | jsonxx.cc:191-229 | parsing the whole rendering of a well-formed value with plain strings and numbers whose printouts read back consumes all of it and gives the value back, each number replaced by what its printout reads as |
| RoundTrip.BackWellFormed | jsonxx.cc:344-357 | reading numbers back keeps every key, so a tree with sorted keys keeps them sorted |
| RoundTrip.BackExact | jsonxx.cc:308-310 | the tree read back equals the tree written exactly when every number in it reads back as itself |
| RoundTrip.ExactRoundTrip | jsonxx.cc:191-229 | when every number reads back as itself, parsing the rendering gives the value itself |
| RoundTrip.LossyRoundTrip | jsonxx.cc:308-310 | with a printer that writes two numbers alike, the round trip still holds and gives both back as the same number |
| ParserFacts.CommaValue | jsonxx.cc:110-118 | a comma where a value should be is an elided null that consumes nothing in lenient mode, and a failure in place in strict mode |
| ParserFacts.TrueAt | jsonxx.cc:98-108 | `true` at the cursor is read as a boolean whatever follows, because `match` checks no word boundary: `truex` reads `true` and leaves `x` |
| ParserFacts.FalseAt | jsonxx.cc:98-108 | `false` at the cursor is read as a boolean whatever follows, with no word boundary checked |
| ParserFacts.PlainBody | jsonxx.cc:53-90 | characters other than the delimiter and the backslash, up to a delimiter, decode to themselves |
| ParserFacts.KeyAt | jsonxx.cc:41-96 | a quoted string without escapes, after any whitespace, is read as the characters between the quotes, with single quotes only in lenient mode |
| ParserFacts.TrailingComma | jsonxx.cc:247-254 | a comma before `]`, with any whitespace between them, ends the element loop without adding an element, in both modes |
| ParserFacts.NoElementAfter | jsonxx.cc:247-254 | a `]` after whitespace where an element should be ends the element loop at the `]` |
| ParserFacts.StrictEmptyElement | jsonxx.cc:247-254 | in strict mode, a second comma ends the element loop |
| ParserFacts.StrictCommaEnds | jsonxx.cc:247-254 | in strict mode, a comma after whitespace where an element should be ends the element loop there, with no element |
| ParserFacts.WholeArray | jsonxx.cc:240-260 | elements closed by `]` make the array |
| ParserFacts.UnclosedArray | jsonxx.cc:256-258 | elements not followed by `]` fail the whole parse where the loop stopped |
| ParserFacts.ArrayThenObject | jsonxx.cc:214-226 | when the array fails at `{`, `Value::parse` reads an object from there |
| ParserFacts.KeylessPass | jsonxx.cc:149-157 | a key that is not a string fails the object, unless not strict with `}` next |
| ParserFacts.LastPass | jsonxx.cc:158-167 | a member not followed by a comma is stored and ends the loop |
| ParserFacts.SecondMember | jsonxx.cc:158-167 | `"l":false` before `}` is stored under `l` on top of the members read so far, and the loop ends at `}` |
| ParserFacts.NextPass | jsonxx.cc:158-167 | a member followed by a comma is stored and the loop continues |
| ParserFacts.WholeObject | jsonxx.cc:139-175 | members closed by `}` make the object |
| ParserFacts.BraceWithoutKey | jsonxx.cc:149-157 | `{` followed by something that is not a key or `}` fails just after the brace |
| ParserFacts.TrailingCommaArray | jsonxx.cc:240-260 | `[true,false,]` is read as two elements in both modes |
| ParserFacts.ElidedElement | jsonxx.cc:110-118 | `[true,,false]` fails in strict mode and reads a null in between when not strict |
| ParserFacts.MissingBracket | jsonxx.cc:256-258 | `[true` fails at the end of the input |
| ParserFacts.ObjectAfterFailedArray | jsonxx.cc:214-226 | `[true {}` is read as an empty object |
| ParserFacts.BraceInArray | jsonxx.cc:247-258 | `[{]` is read as an empty array |
| ParserFacts.DuplicateKey | jsonxx.cc:166 | `{"a":true,"a":false}` keeps only the last value |
| ParserFacts.KeysSorted | jsonxx.cc:166 | `{"b":true,"a":false}` is stored with its keys in ascending order |
| ParserFacts.SingleQuotes | jsonxx.cc:41-52 | `{'a':true,}` fails in strict mode and is read when not strict |
| ParserFacts.NulRejected | jsonxx.cc:110-118 | with the corrected `match`, `nul` is not read as a value and the stream is left at its end, position 3, because the putbacks are refused; the loop as written reads `null` there (see Findings) |
| ParserFacts.EscapeAt | jsonxx.cc:58-86 | a string holding one escape decodes to that escape's entry in the table |
| ParserFacts.SlashEscape | jsonxx.cc:61-64 | `\/` decodes to `/` |
| ParserFacts.UnknownEscapeKept | jsonxx.cc:80-85 | an escape `\c` whose `c` is neither in the table nor the delimiter keeps its backslash in front of `c` |
| ParserFacts.EscapedDelimiter | jsonxx.cc:80-85 | an escaped delimiter is the bare delimiter, but `\'` inside double quotes keeps its backslash |
| Xml.EscapeString | jsonxx.cc:365-378 | every quote of the escaped name has a backslash in front of it, and the name never gets shorter |
| Xml.EscapeStringRoundTrip | jsonxx.cc:365-378 | the escaping of names can be undone exactly, so distinct names stay distinct |
| Xml.EscapeStringUnchanged | jsonxx.cc:365-378 | a name changes exactly when it holds a double or single quote |
| Xml.EscapeTag | jsonxx.cc:380-393 | no `<` or `>` is left in the escaped text, and the text never gets shorter |
| Xml.EscapeTagUnchanged | jsonxx.cc:380-393 | a text changes exactly when it holds `<` or `>` |
| Xml.EscapeTagRoundTrip | jsonxx.cc:380-393 | a text without `&` comes back when the two entities are read back |
| Xml.AmpersandCollides | jsonxx.cc:380-393 | the texts `&lt;` and `<` are written the same |
| Xml.OpenTag | jsonxx.cc:395-425 | an opening tag starts with `<` and ends with `>` |
| Xml.TagNameStart | jsonxx.cc:395-425 | the tag name starts with the element name, and anything after it starts with a space |
| Xml.CloseTagName | jsonxx.cc:427-447 | the closing tag names the element of its type, with unknown types treated as null |
| Xml.TagsMatch | jsonxx.cc:395-447 | the opening and the closing tag of one type name the same element, in both dialects |
| Xml.NullSelfClosing | jsonxx.cc:455-457 | provided its name holds no newline, a null is one self-closing line |
| Xml.AttrAtRoot | jsonxx.cc:449-491 | the attributes go into the first tag of an array or object only, and a scalar ignores them |
| Xml.ObjectDocument | jsonxx.cc:510-521 | an object document is the chosen header, then the object's rendering with the chosen root attributes in its first tag only |
| Xml.ArrayDocument | jsonxx.cc:523-534 | an array document is the chosen header, then the array's rendering with the chosen root attributes in its first tag only |
| Xml.TagIndented | jsonxx.cc:449-491 | provided no string, key, name, attribute or printed number holds a newline, every line written at depth `d` begins with `d` tabs |
| Xml.ElementsIndented | jsonxx.cc:465-470 | provided no string, key or printed number in the elements holds a newline, the lines of array elements begin with one more tab than the array's own lines |
| Xml.MembersIndented | jsonxx.cc:478-483 | provided no key, string or printed number in the members holds a newline, the lines of object members begin with one more tab than the object's own lines |
| Xml.NewlineBreaksIndent | jsonxx.cc:380-393 | a string value holding a newline breaks the indentation: `escape_tag` passes the newline through, so the text after it starts a line with no tabs |

## Left out

- Number conversion and printing: `input >> double` is the `Scalars.Scanner` parameter, and `ostream << double` is the `show` parameter. The round trip assumes only that each number's printout reads back as some number, the same wherever it stands, and that the conversion stops at the printout's end (`RoundTrip.ReadsBack`).
- Parser: every parser member uses the corrected `Tokens.Match`, not the loop as written at lines 25-37. On input that ends inside `null` at a value position (`nul`), jsonxx as written reads `null` (`Tokens.NulTakenForNull`), while the model's parser fails there. The two agree on every other input.
- Scalars.ScansWithin: the conversion is assumed to consume nothing where no number can begin, as libstdc++'s `num_get` does. libc++ also gathers hex letters, `x`, `p`, `i` and `n` before a number has begun. There a failed `input >> double` on `false` or `null` consumes `fa` or `n`, and the later `parse_bool` or `parse_null` fails. `Parser.ScalarFailsInPlace`, `ParserFacts.FalseAt` and the round trip of `false` and `null` hold only for the libstdc++ behaviour.
- Number printing in `tag` goes through a fresh `std::stringstream` with default formatting, whereas `operator<<` uses the caller's stream. `Xml.Tag` takes its own `show` parameter, so either printer can be supplied.
- Memory management is left out, because the model's values are immutable: `new` and `delete`, the destructors, `Value::reset`, and the `const_cast` aliasing in the two `xml` wrappers. This includes the value that is lost, not deleted, when a repeated key is stored at line 166.
- The iostream state flags, `putback` and `std::hex`/`setw` state are replaced by the cursor model and a pure hex-digit function.
- JsonWriter.EscapeChar: a character of 128 or more is copied through. On a platform with signed `char` it takes the `\u` path instead (lines 293-296), with a platform-dependent rendering.
- RoundTrip.RoundTrip: numbers that do not print exactly do not round-trip. At the default six significant digits, the tree read back holds the number the printout reads as (`RoundTrip.Back`). A number whose printout does not read back as a number, such as `inf` or `nan`, is outside the theorem.
- RoundTrip.RoundTrip: the round trip is proved only for plain strings, meaning 7-bit printable characters and the five named controls. Other control characters are written as `\u` escapes, which `parse_string` does not decode.
- The `Invalid` state of a default-constructed Value is not modelled: the model's values are always one of the six kinds. `tag` renders that state as null and `operator<<` writes nothing for it.
- `JSONXX_XML_TAG`, defined in `jsonxx.h`, is the `xmlTag` parameter of `Xml.DefaultHeader`.
- The `assert` on the format number is replaced by the two-constructor `Xml.Format`. As a result, the empty string that `open_tag` and `close_tag` return for any other format is unreachable.
- Xml.TagIndented: jsonxx escapes no newline in XML text or names, so text holding one breaks the indentation (`Xml.NewlineBreaksIndent`). The indentation lemmas promise it only for text without newlines.
- `settings::strict` is not a global: it is a field of `Parser.Settings`, passed explicitly.

## Findings

| source | as written | input that shows it | evidently intended | confidence | as-written member | corrected member |
|---|---|---|---|---|---|---|
| jsonxx.cc:25-37 | When `input.get(ch)` fails at the end of the input, `ch` keeps the previous character, and the loop still compares it with the pattern. | `nul` (end of input): `match("null", …)` returns true, so `Value::parse` reads `null` | the match fails when the input ends inside the pattern | not executed | Tokens.MatchLoop | Tokens.Match |

=== FILE: parser.dfy ===
/** The recursive-descent parser: `Value::parse`, `Array::parse` and
    `Object::parse`, with `settings::strict` and the numeric conversion
    passed in as `Settings`. Each container consumes its opening `[` or `{`
    before parsing children, so the remaining input shrinks on every
    recursive descent. */
module Parser {
  import opened Tokens
  import opened JsonValue
  import opened Scalars

  datatype Settings = Settings(strict: bool, number: Scanner)

  /** `Value::parse`: string, number, boolean and null are tried in that
      order, each from where the previous failed attempt left the stream;
      an array is tried only when the next character is `[`; an object is
      tried last, unconditionally, from wherever the failed attempts left
      the stream, and its failure is the overall failure. */
  function ParseValue(st: Settings, s: string, i: nat): (r: Parsed<Value>)
    requires i <= |s|
    ensures i <= r.next <= |s|
    decreases |s| - i, 1
  {
    match ParseScalar(st, s, i)
    case Ok(v, j) => Ok(v, j)
    case Fail(q) =>
      if PeekIs(s, q, '[') then
        match ParseArray(st, s, q)
        case Ok(vs, j) => Ok(Arr(vs), j)
        case Fail(q') => AsObject(ParseObject(st, s, q'))
      else AsObject(ParseObject(st, s, q))
  }

  /** The four scalar alternatives of `Value::parse`, in order. */
  function ParseScalar(st: Settings, s: string, i: nat): (r: Parsed<Value>)
    requires i <= |s|
    ensures i <= r.next <= |s|
  {
    match ParseString(s, i, st.strict)
    case Ok(str, j) => Ok(Str(str), j)
    case Fail(q1) =>
      match ParseNumber(st.number, s, q1)
      case Ok(n, j) => Ok(Num(n), j)
      case Fail(q2) =>
        match ParseBool(s, q2)
        case Ok(b, j) => Ok(Bool(b), j)
        case Fail(q3) =>
          match ParseNull(s, q3, st.strict)
          case Ok(_, j) => Ok(Null, j)
          case Fail(q4) => Fail(q4)
  }

  function AsObject(r: Parsed<seq<(string, Value)>>): Parsed<Value> {
    match r
    case Ok(ms, j) => Ok(Obj(ms), j)
    case Fail(q) => Fail(q)
  }

  /** `Array::parse`: `[`, the elements, then `]`, which must be there. */
  function ParseArray(st: Settings, s: string, i: nat): (r: Parsed<seq<Value>>)
    requires i <= |s|
    ensures i <= r.next <= |s|
    decreases |s| - i, 0
  {
    match Match(s, i, "[")
    case Fail(q) => Fail(q)
    case Ok(_, a) =>
      var (vs, e) := Elements(st, s, a);
      match Match(s, e, "]")
      case Ok(_, f) => Ok(vs, f)
      case Fail(f) => Fail(f)
  }

  /** The `do { ... } while (match(",", input))` loop of `Array::parse`: an
      element that fails to parse ends the loop (so a trailing comma is
      harmless), and so does a missing comma. Returns the elements read and
      the cursor after the loop. */
  function Elements(st: Settings, s: string, a: nat): (r: (seq<Value>, nat))
    requires a <= |s|
    ensures a <= r.1 <= |s|
    decreases |s| - a, 2
  {
    match ParseValue(st, s, a)
    case Fail(q) => ([], q)
    case Ok(v, b) =>
      match Match(s, b, ",")
      case Fail(c) => ([v], c)
      case Ok(_, c) =>
        var (rest, e) := Elements(st, s, c);
        ([v] + rest, e)
  }

  /** `Object::parse`: `{`, then either `}` at once or the members, then
      `}`, which must be there. */
  function ParseObject(st: Settings, s: string, i: nat): (r: Parsed<seq<(string, Value)>>)
    requires i <= |s|
    ensures i <= r.next <= |s|
    decreases |s| - i, 0
  {
    match Match(s, i, "{")
    case Fail(q) => Fail(q)
    case Ok(_, a) =>
      match Match(s, a, "}")
      case Ok(_, b) => Ok([], b)
      case Fail(b) =>
        match Members(st, s, b, [])
        case Fail(q) => Fail(q)
        case Ok(ms, e) =>
          match Match(s, e, "}")
          case Ok(_, f) => Ok(ms, f)
          case Fail(f) => Fail(f)
  }

  /** The member loop of `Object::parse`, storing into `acc`. `Ok` means the
      loop ended (a value that failed to parse, or no comma after a member)
      and the closing brace is still to be matched; `Fail` means the parse
      gives up (a key that is not a string, unless not strict and `}` is
      next; or a missing colon). This part of a pass reads the key and the
      colon. */
  function Members(st: Settings, s: string, b: nat, acc: seq<(string, Value)>)
    : (r: Parsed<seq<(string, Value)>>)
    requires b <= |s|
    ensures b <= r.next <= |s|
    decreases |s| - b, 3
  {
    match ParseString(s, b, st.strict)
    case Fail(q) =>
      if !st.strict && PeekIs(s, q, '}') then Ok(acc, q) else Fail(q)
    case Ok(key, c) =>
      match Match(s, c, ":")
      case Fail(d) => Fail(d)
      case Ok(_, d) => MemberValue(st, s, d, acc, key)
  }

  /** The rest of a pass of the member loop, after the colon: the value,
      which is stored under `key`, and the comma that continues the loop. */
  function MemberValue(st: Settings, s: string, d: nat, acc: seq<(string, Value)>, key: string)
    : (r: Parsed<seq<(string, Value)>>)
    requires d <= |s|
    ensures d <= r.next <= |s|
    decreases |s| - d, 2
  {
    match ParseValue(st, s, d)
    case Fail(e) => Ok(acc, e)
    case Ok(v, e) =>
      var acc' := Put(acc, key, v);
      match Match(s, e, ",")
      case Fail(f) => Ok(acc', f)
      case Ok(_, f) => Members(st, s, f, acc')
  }

  /** A character no scalar parser accepts and the numeric conversion does
      not consume. */
  predicate NoScalarAt(c: char) {
    && !NumberStart(c) && !IsSpace(c)
    && c != '"' && c != '\'' && c != 't' && c != 'f' && c != 'n' && c != ','
  }

  /** Where no scalar can begin, the scalar alternatives all fail without
      consuming anything. */
  lemma {:induction false} ScalarFailsInPlace(st: Settings, s: string, i: nat)
    requires i <= |s|
    requires SkipWs(s, i) == |s| || NoScalarAt(s[SkipWs(s, i)])
    ensures ParseScalar(st, s, i) == Fail(SkipWs(s, i))
  {
    var p := SkipWs(s, i);
    StringMeans(s, i, st.strict);
    SkipWsTo(s, p, p);
    NumberMeans(st.number, s, p);
    BoolMeans(s, p);
    NullMeans(s, p, st.strict);
  }

  /** An array read starts with `[` after the whitespace and ends with `]`. */
  lemma {:induction false} ArrayShape(st: Settings, s: string, i: nat, vs: seq<Value>, f: nat)
    requires i <= |s| && ParseArray(st, s, i) == Ok(vs, f)
    ensures PeekIs(s, SkipWs(s, i), '[') && SkipWs(s, i) + 2 <= f && s[f - 1] == ']'
  {
    MatchedChar(s, i, "[");
    MatchedChar(s, Elements(st, s, SkipWs(s, i) + 1).1, "]");
  }

  /** An object read starts with `{` after the whitespace and ends with `}`. */
  lemma {:induction false} ObjectShape(st: Settings, s: string, i: nat, ms: seq<(string, Value)>, f: nat)
    requires i <= |s| && ParseObject(st, s, i) == Ok(ms, f)
    ensures PeekIs(s, SkipWs(s, i), '{') && SkipWs(s, i) + 2 <= f && s[f - 1] == '}'
  {
    MatchedChar(s, i, "{");
    var a := SkipWs(s, i) + 1;
    if Match(s, a, "}").Ok? {
      MatchedChar(s, a, "}");
    } else {
      MatchedChar(s, Members(st, s, Match(s, a, "}").next, []).next, "}");
    }
  }

  /** Everything `Value::parse` builds is well-formed: the objects in it,
      at any depth, have their keys in ascending order, because every member
      is stored through the map. */
  lemma {:induction false} ValueWellFormed(st: Settings, s: string, i: nat)
    requires i <= |s|
    ensures ParseValue(st, s, i).Ok? ==> WellFormed(ParseValue(st, s, i).value)
    decreases |s| - i, 1
  {
    var q := ParseScalar(st, s, i).next;
    if ParseScalar(st, s, i).Fail? {
      if PeekIs(s, q, '[') {
        ArrayWellFormed(st, s, q);
        if ParseArray(st, s, q).Fail? {
          ObjectWellFormed(st, s, ParseArray(st, s, q).next);
        }
      } else {
        ObjectWellFormed(st, s, q);
      }
    }
  }

  lemma {:induction false} ArrayWellFormed(st: Settings, s: string, i: nat)
    requires i <= |s|
    ensures ParseArray(st, s, i).Ok? ==> forall k :: 0 <= k < |ParseArray(st, s, i).value| ==> WellFormed(ParseArray(st, s, i).value[k])
    decreases |s| - i, 0
  {
    if Match(s, i, "[").Ok? {
      ElementsWellFormed(st, s, Match(s, i, "[").next);
    }
  }

  lemma {:induction false} ElementsWellFormed(st: Settings, s: string, a: nat)
    requires a <= |s|
    ensures forall k :: 0 <= k < |Elements(st, s, a).0| ==> WellFormed(Elements(st, s, a).0[k])
    decreases |s| - a, 2
  {
    ValueWellFormed(st, s, a);
    var r := ParseValue(st, s, a);
    if r.Ok? && Match(s, r.next, ",").Ok? {
      ElementsWellFormed(st, s, Match(s, r.next, ",").next);
    }
  }

  lemma {:induction false} ObjectWellFormed(st: Settings, s: string, i: nat)
    requires i <= |s|
    ensures ParseObject(st, s, i).Ok? ==> WellFormedMembers(ParseObject(st, s, i).value)
    decreases |s| - i, 0
  {
    if Match(s, i, "{").Ok? {
      var a := Match(s, i, "{").next;
      if Match(s, a, "}").Fail? {
        MembersWellFormed(st, s, Match(s, a, "}").next, []);
      }
    }
  }

  lemma {:induction false} MembersWellFormed(st: Settings, s: string, b: nat, acc: seq<(string, Value)>)
    requires b <= |s| && WellFormedMembers(acc)
    ensures Members(st, s, b, acc).Ok? ==> WellFormedMembers(Members(st, s, b, acc).value)
    decreases |s| - b, 3
  {
    var k := ParseString(s, b, st.strict);
    if k.Ok? && Match(s, k.next, ":").Ok? {
      MemberValueWellFormed(st, s, Match(s, k.next, ":").next, acc, k.value);
    }
  }

  lemma {:induction false} MemberValueWellFormed(st: Settings, s: string, d: nat, acc: seq<(string, Value)>, key: string)
    requires d <= |s| && WellFormedMembers(acc)
    ensures MemberValue(st, s, d, acc, key).Ok? ==> WellFormedMembers(MemberValue(st, s, d, acc, key).value)
    decreases |s| - d, 2
  {
    ValueWellFormed(st, s, d);
    var r := ParseValue(st, s, d);
    if r.Ok? {
      PutWellFormed(acc, key, r.value);
      if Match(s, r.next, ",").Ok? {
        MembersWellFormed(st, s, Match(s, r.next, ",").next, Put(acc, key, r.value));
      }
    }
  }
}

=== FILE: parser_props.dfy ===
/** What the parser does with inputs that are not what the serialiser
    writes: trailing commas, elided elements, duplicate and unordered keys,
    single quotes, missing closing brackets, and the places where a failed
    alternative leaves the stream for the next one. */
module ParserFacts {
  import opened Tokens
  import opened JsonValue
  import opened Scalars
  import opened Parser
  import opened RoundTrip

  /** A comma where a value should be: not strict, it is an elided `null`
      that consumes nothing; strict, every alternative fails there. */
  lemma {:induction false} CommaValue(st: Settings, s: string, i: nat)
    requires i <= |s| && PeekIs(s, SkipWs(s, i), ',')
    ensures ParseValue(st, s, i) == if st.strict then Fail(SkipWs(s, i)) else Ok(Null, SkipWs(s, i))
  {
    var p := SkipWs(s, i);
    SkipWsTo(s, p, p);
    StringMeans(s, i, st.strict);
    NumberMeans(st.number, s, p);
    BoolMeans(s, p);
    NullMeans(s, p, st.strict);
    if st.strict {
      NoMatchHere(s, p, "{");
    }
  }

  /** `true` right at `j` is read as that boolean. */
  lemma {:induction false} TrueAt(st: Settings, s: string, j: nat)
    requires j + 4 <= |s| && s[j] == 't' && s[j + 1] == 'r' && s[j + 2] == 'u' && s[j + 3] == 'e'
    ensures ValueReads(st, s, j, Bool(true), j + 4)
  {
    assert StartsWith(s, j, "true");
    SkipWsTo(s, j, j);
    StringMeans(s, j, st.strict);
    NumberMeans(st.number, s, j);
    BoolMeans(s, j);
  }

  /** `false` right at `j` is read as that boolean. */
  lemma {:induction false} FalseAt(st: Settings, s: string, j: nat)
    requires j + 5 <= |s| && s[j] == 'f' && s[j + 1] == 'a' && s[j + 2] == 'l' && s[j + 3] == 's' && s[j + 4] == 'e'
    ensures ValueReads(st, s, j, Bool(false), j + 5)
  {
    assert StartsWith(s, j, "false");
    SkipWsTo(s, j, j);
    StringMeans(s, j, st.strict);
    NumberMeans(st.number, s, j);
    BoolMeans(s, j);
  }

  /** Characters that are neither the delimiter nor a backslash, up to a
      delimiter at `e`, decode to themselves. */
  lemma {:induction false} PlainBody(s: string, k: nat, e: nat, delim: char)
    requires k <= e < |s| && s[e] == delim
    requires forall q :: k <= q < e ==> s[q] != delim && s[q] != '\\'
    ensures DecodeBody(s, k, delim) == Ok(s[k..e], e + 1)
    decreases e - k
  {
    if k < e {
      PlainBody(s, k + 1, e, delim);
      assert s[k..e] == [s[k]] + s[k + 1..e];
    }
  }

  /** A key without escapes between quotes after the whitespace: double
      quotes always, single quotes only when not strict. */
  lemma {:induction false} KeyAt(s: string, i: nat, e: nat, delim: char, strict: bool)
    requires i <= |s| && SkipWs(s, i) < e < |s|
    requires s[SkipWs(s, i)] == delim && s[e] == delim
    requires forall q :: SkipWs(s, i) < q < e ==> s[q] != delim && s[q] != '\\'
    requires delim == '"' || (delim == '\'' && !strict)
    ensures ParseString(s, i, strict) == Ok(s[SkipWs(s, i) + 1..e], e + 1)
  {
    var j := SkipWs(s, i);
    MatchMeans(s, i, "\"");
    if delim == '"' {
      assert StartsWith(s, j, "\"");
      MatchedChar(s, i, "\"");
    } else {
      assert s[j + 0] != "\""[0];
    }
    PlainBody(s, j + 1, e, delim);
  }

  /** A trailing comma is harmless in both modes: after a value and a
      comma, a `]` (after any whitespace) where the next element should be
      makes that element fail, which ends the loop where `]` is then
      matched. */
  lemma {:induction false} TrailingComma(st: Settings, s: string, a: nat, v: Value, b: nat)
    requires a <= b && PeekIs(s, b, ',') && PeekIs(s, SkipWs(s, b + 1), ']')
    requires ValueReads(st, s, a, v, b)
    ensures ElementsRead(st, s, a, [v], SkipWs(s, b + 1))
  {
    var p := SkipWs(s, b + 1);
    NoElementAfter(st, s, b + 1);
    assert [v][1..] == [];
    ElementsNext(st, s, a, [v], b, p);
  }

  /** A `]` after whitespace where an element should be: the element loop
      ends there at once. */
  lemma {:induction false} NoElementAfter(st: Settings, s: string, a: nat)
    requires a <= |s| && PeekIs(s, SkipWs(s, a), ']')
    ensures ElementsRead(st, s, a, [], SkipWs(s, a))
  {
    var p := SkipWs(s, a);
    ScalarFailsInPlace(st, s, a);
    NoMatchHere(s, p, "{");
    assert ParseValue(st, s, a) == Fail(p);
  }

  /** An input that is one array from start to end. */
  lemma {:induction false} WholeArray(st: Settings, s: string, vs: seq<Value>, e: nat)
    requires 0 < e < |s| && s[0] == '[' && s[e] == ']'
    requires ElementsRead(st, s, 1, vs, e)
    ensures ValueReads(st, s, 0, Arr(vs), e + 1)
  {
    ArrayStep(st, s, 0, vs, e);
    SkipWsTo(s, 0, 0);
    ArrayValue(st, s, 0, 0, vs, e + 1);
  }

  /** Strict, an empty element between two commas fails, which ends the
      element loop at the second comma. */
  lemma {:induction false} StrictEmptyElement(st: Settings, s: string, a: nat, v: Value, b: nat)
    requires st.strict && a <= b && PeekIs(s, b, ',') && PeekIs(s, b + 1, ',')
    requires ValueReads(st, s, a, v, b)
    ensures ElementsRead(st, s, a, [v], b + 1)
  {
    SkipWsTo(s, b + 1, b + 1);
    StrictCommaEnds(st, s, b + 1);
    assert [v][1..] == [];
    ElementsNext(st, s, a, [v], b, b + 1);
  }

  /** Strict, a comma (after whitespace) where an element should be ends
      the element loop there with no element. */
  lemma {:induction false} StrictCommaEnds(st: Settings, s: string, a: nat)
    requires st.strict && a <= |s| && PeekIs(s, SkipWs(s, a), ',')
    ensures ElementsRead(st, s, a, [], SkipWs(s, a))
  {
    CommaValue(st, s, a);
  }

  /** An array whose element loop stops at the end of the input, or at a
      character that is neither `]` nor `{`, is a failure there: `]` is
      missing, and the object alternative tried next fails at once. */
  lemma {:induction false} UnclosedArray(st: Settings, s: string, vs: seq<Value>, e: nat)
    requires 0 < |s| && s[0] == '[' && 1 <= e <= |s|
    requires e == |s| || (s[e] != ']' && s[e] != '{' && !IsSpace(s[e]))
    requires ElementsRead(st, s, 1, vs, e)
    ensures ParseValue(st, s, 0) == Fail(e)
  {
    SkipWsTo(s, 0, 0);
    ScalarFailsInPlace(st, s, 0);
    MatchHere(s, 0, "[");
    if e < |s| {
      NoMatchHere(s, e, "]");
      NoMatchHere(s, e, "{");
    } else {
      assert SkipWs(s, e) == e;
      assert Match(s, e, "]") == Fail(e);
      assert Match(s, e, "{") == Fail(e);
    }
  }

  /** When the element loop stops at a `{`, `]` is missing and the array
      fails there; `Value::parse` then reads an object from that `{`, and
      the elements before it are dropped. */
  lemma {:induction false} ArrayThenObject(st: Settings, s: string, vs: seq<Value>, e: nat,
                                           ms: seq<(string, Value)>, f: nat)
    requires 0 < |s| && s[0] == '[' && 1 <= e < |s| && s[e] == '{'
    requires ElementsRead(st, s, 1, vs, e)
    requires ObjectReads(st, s, e, ms, f)
    ensures ValueReads(st, s, 0, Obj(ms), f)
  {
    SkipWsTo(s, 0, 0);
    ScalarFailsInPlace(st, s, 0);
    MatchHere(s, 0, "[");
    NoMatchHere(s, e, "]");
  }

  /** A pass of the member loop that finds no key where one should be: if
      not strict and `}` is next the loop ends there, keeping what it has
      stored; otherwise the whole object fails. */
  lemma {:induction false} KeylessPass(st: Settings, s: string, b: nat, acc: seq<(string, Value)>)
    requires b <= |s|
    requires var p := SkipWs(s, b); p == |s| || (s[p] != '"' && (st.strict || s[p] != '\''))
    ensures var p := SkipWs(s, b);
      Members(st, s, b, acc) == if !st.strict && PeekIs(s, p, '}') then Ok(acc, p) else Fail(p)
  {
    StringMeans(s, b, st.strict);
  }

  /** A key, a colon, a value and `}`: the last pass of the member loop
      stores the value under the key. */
  lemma {:induction false} LastPass(st: Settings, s: string, b: nat, acc: seq<(string, Value)>, key: string, c: nat,
                                    v: Value, e: nat)
    requires b <= c && PeekIs(s, c, ':') && c < e && PeekIs(s, e, '}')
    requires KeyReads(st, s, b, key, c)
    requires ValueReads(st, s, c + 1, v, e)
    ensures MembersRead(st, s, b, acc, Put(acc, key, v), e)
  {
    MemberValueLast(st, s, c + 1, acc, key, v, e, Put(acc, key, v));
    KeyStep(st, s, b, acc, key, c, Put(acc, key, v), e);
  }

  /** A key, a colon, a value and a comma: the pass stores the value under
      the key, and the loop goes on with the map so updated. */
  lemma {:induction false} NextPass(st: Settings, s: string, b: nat, acc: seq<(string, Value)>, key: string, c: nat,
                                    v: Value, e: nat, ms: seq<(string, Value)>, f: nat)
    requires b <= c && PeekIs(s, c, ':') && c < e && PeekIs(s, e, ',')
    requires KeyReads(st, s, b, key, c)
    requires ValueReads(st, s, c + 1, v, e)
    requires MembersRead(st, s, e + 1, Put(acc, key, v), ms, f)
    ensures MembersRead(st, s, b, acc, ms, f)
  {
    MemberValueNext(st, s, c + 1, acc, key, v, e, ms, f, Put(acc, key, v));
    KeyStep(st, s, b, acc, key, c, ms, f);
  }

  /** An input that is one non-empty object from start to end. */
  lemma {:induction false} WholeObject(st: Settings, s: string, ms: seq<(string, Value)>, e: nat)
    requires 1 < e < |s| && s[0] == '{' && s[1] != '}' && !IsSpace(s[1]) && s[e] == '}'
    requires MembersRead(st, s, 1, [], ms, e)
    ensures ValueReads(st, s, 0, Obj(ms), e + 1)
  {
    MatchHere(s, 0, "{");
    NoMatchHere(s, 1, "}");
    MatchHere(s, e, "}");
    assert ObjectReads(st, s, 0, ms, e + 1);
    SkipWsTo(s, 0, 0);
    ObjectValue(st, s, 0, 0, ms, e + 1);
  }

  /** A `{` followed by something that is neither `}` nor the quote of a
      key: the object fails, and the `{` stays consumed. */
  lemma {:induction false} BraceWithoutKey(st: Settings, s: string, a: nat)
    requires a + 1 < |s| && s[a] == '{'
    requires s[a + 1] != '}' && s[a + 1] != '"' && !IsSpace(s[a + 1])
    requires st.strict || s[a + 1] != '\''
    ensures ParseObject(st, s, a) == Fail(a + 1)
  {
    MatchHere(s, a, "{");
    NoMatchHere(s, a + 1, "}");
    SkipWsTo(s, a + 1, a + 1);
    KeylessPass(st, s, a + 1, []);
  }

  /** The input `s` is the text `t`, character by character. The examples
      below take their input through this predicate rather than as a
      literal, so that each proof works with the characters it needs. */
  predicate Spells(s: string, t: string) {
    |s| == |t| && forall k :: 0 <= k < |t| ==> s[k] == t[k]
  }

  /** `[true,false,]` is read as two elements, in both modes. */
  lemma {:induction false} TrailingCommaArray(st: Settings, s: string)
    requires Spells(s, "[true,false,]")
    ensures ValueReads(st, s, 0, Arr([Bool(true), Bool(false)]), 13)
  {
    assert s[0] == '[' && s[5] == ',' && s[11] == ',' && s[12] == ']';
    assert s[1] == 't' && s[2] == 'r' && s[3] == 'u' && s[4] == 'e';
    assert s[6] == 'f' && s[7] == 'a' && s[8] == 'l' && s[9] == 's' && s[10] == 'e';
    FalseAt(st, s, 6);
    SkipWsTo(s, 12, 12);
    TrailingComma(st, s, 6, Bool(false), 11);
    TrueAt(st, s, 1);
    ElementsNext(st, s, 1, [Bool(true), Bool(false)], 5, 12);
    WholeArray(st, s, [Bool(true), Bool(false)], 12);
  }

  /** `[true,,false]`: not strict, the empty element is `null`; strict,
      the parse fails at the second comma. */
  lemma {:induction false} ElidedElement(st: Settings, s: string)
    requires Spells(s, "[true,,false]")
    ensures st.strict ==> ParseValue(st, s, 0) == Fail(6)
    ensures !st.strict ==> ValueReads(st, s, 0, Arr([Bool(true), Null, Bool(false)]), 13)
  {
    assert s[0] == '[' && s[5] == ',' && s[6] == ',' && s[12] == ']';
    assert s[1] == 't' && s[2] == 'r' && s[3] == 'u' && s[4] == 'e';
    assert s[7] == 'f' && s[8] == 'a' && s[9] == 'l' && s[10] == 's' && s[11] == 'e';
    TrueAt(st, s, 1);
    if st.strict {
      StrictEmptyElement(st, s, 1, Bool(true), 5);
      UnclosedArray(st, s, [Bool(true)], 6);
    } else {
      ElidedTail(st, s);
      ElementsNext(st, s, 1, [Bool(true), Null, Bool(false)], 5, 12);
      WholeArray(st, s, [Bool(true), Null, Bool(false)], 12);
    }
  }

  /** The part of `[true,,false]` after the first comma, not strict. */
  lemma {:induction false} ElidedTail(st: Settings, s: string)
    requires !st.strict && |s| == 13 && s[6] == ',' && s[12] == ']'
    requires s[7] == 'f' && s[8] == 'a' && s[9] == 'l' && s[10] == 's' && s[11] == 'e'
    ensures ElementsRead(st, s, 6, [Null, Bool(false)], 12)
  {
    SkipWsTo(s, 6, 6);
    CommaValue(st, s, 6);
    FalseAt(st, s, 7);
    ElementsLast(st, s, 7, Bool(false), 12);
    ElementsNext(st, s, 6, [Null, Bool(false)], 6, 12);
  }

  /** `[true`: the closing bracket is missing, so the parse fails at the
      end of the input. */
  lemma {:induction false} MissingBracket(st: Settings, s: string)
    requires Spells(s, "[true")
    ensures ParseValue(st, s, 0) == Fail(5)
  {
    assert s[0] == '[' && s[1] == 't' && s[2] == 'r' && s[3] == 'u' && s[4] == 'e';
    TrueAt(st, s, 1);
    assert SkipWs(s, 5) == 5;
    assert Match(s, 5, ",") == Fail(5);
    assert ElementsRead(st, s, 1, [Bool(true)], 5);
    UnclosedArray(st, s, [Bool(true)], 5);
  }

  /** `[true {}`: the array fails at `{`, where `Value::parse` then reads
      an empty object; the `true` read before is dropped. */
  lemma {:induction false} ObjectAfterFailedArray(st: Settings, s: string)
    requires Spells(s, "[true {}")
    ensures ValueReads(st, s, 0, Obj([]), 8)
  {
    assert s[0] == '[' && s[1] == 't' && s[2] == 'r' && s[3] == 'u' && s[4] == 'e';
    assert s[5] == ' ' && s[6] == '{' && s[7] == '}';
    TrueAt(st, s, 1);
    assert SkipWs(s, 5) == 6;
    NoMatchHere(s, 6, ",");
    assert Match(s, 5, ",") == Fail(6);
    assert ElementsRead(st, s, 1, [Bool(true)], 6);
    EmptyObjectAt(st, s, 6);
    ArrayThenObject(st, s, [Bool(true)], 6, [], 8);
  }

  /** `[{]`: the object element fails after consuming `{`, which ends the
      element loop right in front of `]`; the result is an empty array. */
  lemma {:induction false} BraceInArray(st: Settings, s: string)
    requires Spells(s, "[{]")
    ensures ValueReads(st, s, 0, Arr([]), 3)
  {
    assert s[0] == '[' && s[1] == '{' && s[2] == ']';
    SkipWsTo(s, 1, 1);
    ScalarFailsInPlace(st, s, 1);
    BraceWithoutKey(st, s, 1);
    assert ParseValue(st, s, 1) == Fail(2);
    assert ElementsRead(st, s, 1, [], 2);
    WholeArray(st, s, [], 2);
  }

  /** `{"a":true,"a":false}`: the second member overwrites the first, so
      the last write wins. */
  lemma {:induction false} DuplicateKey(st: Settings, s: string)
    requires Spells(s, "{\"a\":true,\"a\":false}")
    ensures ValueReads(st, s, 0, Obj([("a", Bool(false))]), 20)
  {
    assert s[0] == '{' && s[1] == '"' && s[2] == 'a' && s[3] == '"' && s[4] == ':' && s[9] == ',';
    assert s[10] == '"' && s[11] == 'a' && s[12] == '"' && s[13] == ':' && s[19] == '}';
    assert s[5] == 't' && s[6] == 'r' && s[7] == 'u' && s[8] == 'e';
    assert s[14] == 'f' && s[15] == 'a' && s[16] == 'l' && s[17] == 's' && s[18] == 'e';
    TwoMembers(st, s, "a", Bool(true), "a", Bool(false));
    assert Put([], "a", Bool(true)) == [("a", Bool(true))];
    assert Put([("a", Bool(true))], "a", Bool(false)) == [("a", Bool(false))];
  }

  /** `{"b":true,"a":false}`: the members are stored in key order, not in
      the order they were read. */
  lemma {:induction false} KeysSorted(st: Settings, s: string)
    requires Spells(s, "{\"b\":true,\"a\":false}")
    ensures ValueReads(st, s, 0, Obj([("a", Bool(false)), ("b", Bool(true))]), 20)
  {
    assert s[0] == '{' && s[1] == '"' && s[2] == 'b' && s[3] == '"' && s[4] == ':' && s[9] == ',';
    assert s[10] == '"' && s[11] == 'a' && s[12] == '"' && s[13] == ':' && s[19] == '}';
    assert s[5] == 't' && s[6] == 'r' && s[7] == 'u' && s[8] == 'e';
    assert s[14] == 'f' && s[15] == 'a' && s[16] == 'l' && s[17] == 's' && s[18] == 'e';
    TwoMembers(st, s, "b", Bool(true), "a", Bool(false));
    assert Put([], "b", Bool(true)) == [("b", Bool(true))];
    assert Less("a", "b");
    assert Put([("b", Bool(true))], "a", Bool(false)) == [("a", Bool(false)), ("b", Bool(true))];
  }

  /** An object of two one-letter keys whose values are `true` and
      `false`, written without spaces: `{"k":true,"l":false}`. */
  lemma {:induction false} TwoMembers(st: Settings, s: string, k: string, v: Value, l: string, w: Value)
    requires |s| == 20 && |k| == 1 && |l| == 1 && v == Bool(true) && w == Bool(false)
    requires k[0] != '"' && k[0] != '\\' && l[0] != '"' && l[0] != '\\'
    requires s[0] == '{' && s[1] == '"' && s[2] == k[0] && s[3] == '"' && s[4] == ':' && s[9] == ','
    requires s[10] == '"' && s[11] == l[0] && s[12] == '"' && s[13] == ':' && s[19] == '}'
    requires s[5] == 't' && s[6] == 'r' && s[7] == 'u' && s[8] == 'e'
    requires s[14] == 'f' && s[15] == 'a' && s[16] == 'l' && s[17] == 's' && s[18] == 'e'
    ensures ValueReads(st, s, 0, Obj(Put(Put([], k, v), l, w)), 20)
  {
    SkipWsTo(s, 1, 1);
    KeyAt(s, 1, 3, '"', st.strict);
    assert s[2..3] == k;
    SecondMember(st, s, Put([], k, v), l, w);
    TrueAt(st, s, 5);
    NextPass(st, s, 1, [], k, 4, v, 9, Put(Put([], k, v), l, w), 19);
    WholeObject(st, s, Put(Put([], k, v), l, w), 19);
  }

  /** The second pass of `TwoMembers`: the key `l` and the value `false`
      up to `}` are stored on top of `acc`. */
  lemma {:induction false} SecondMember(st: Settings, s: string, acc: seq<(string, Value)>, l: string, w: Value)
    requires |s| == 20 && |l| == 1 && w == Bool(false) && l[0] != '"' && l[0] != '\\'
    requires s[10] == '"' && s[11] == l[0] && s[12] == '"' && s[13] == ':' && s[19] == '}'
    requires s[14] == 'f' && s[15] == 'a' && s[16] == 'l' && s[17] == 's' && s[18] == 'e'
    ensures MembersRead(st, s, 10, acc, Put(acc, l, w), 19)
  {
    SkipWsTo(s, 10, 10);
    KeyAt(s, 10, 12, '"', st.strict);
    assert s[11..12] == l;
    FalseAt(st, s, 14);
    LastPass(st, s, 10, acc, l, 13, w, 19);
  }

  /** `{'a':true,}`: not strict, a single-quoted key is read and the
      trailing comma is tolerated because `}` follows it; strict, the
      object fails at the first quote. */
  lemma {:induction false} SingleQuotes(st: Settings, s: string)
    requires Spells(s, "{'a':true,}")
    ensures st.strict ==> ParseValue(st, s, 0) == Fail(1)
    ensures !st.strict ==> ValueReads(st, s, 0, Obj([("a", Bool(true))]), 11)
  {
    assert s[0] == '{' && s[1] == '\'' && s[2] == 'a' && s[3] == '\'' && s[4] == ':' && s[9] == ',' && s[10] == '}';
    assert s[5] == 't' && s[6] == 'r' && s[7] == 'u' && s[8] == 'e';
    if st.strict {
      SkipWsTo(s, 0, 0);
      ScalarFailsInPlace(st, s, 0);
      BraceWithoutKey(st, s, 0);
    } else {
      SingleQuotedMember(st, s);
    }
  }

  /** The lenient reading of `{'a':true,}`. */
  lemma {:induction false} SingleQuotedMember(st: Settings, s: string)
    requires !st.strict && |s| == 11
    requires s[0] == '{' && s[1] == '\'' && s[2] == 'a' && s[3] == '\'' && s[4] == ':' && s[9] == ',' && s[10] == '}'
    requires s[5] == 't' && s[6] == 'r' && s[7] == 'u' && s[8] == 'e'
    ensures ValueReads(st, s, 0, Obj([("a", Bool(true))]), 11)
  {
    SkipWsTo(s, 10, 10);
    KeylessPass(st, s, 10, [("a", Bool(true))]);
    SkipWsTo(s, 1, 1);
    KeyAt(s, 1, 3, '\'', false);
    assert s[2..3] == "a";
    TrueAt(st, s, 5);
    assert Put([], "a", Bool(true)) == [("a", Bool(true))];
    NextPass(st, s, 1, [], "a", 4, Bool(true), 9, [("a", Bool(true))], 10);
    WholeObject(st, s, [("a", Bool(true))], 10);
  }

  /** `nul`: the input ends inside the token `null`, so nothing is read
      (the loop of `match` as written would accept it). */
  lemma {:induction false} NulRejected(st: Settings, s: string)
    requires Spells(s, "nul")
    ensures ParseValue(st, s, 0) == Fail(3)
  {
    assert s[0] == 'n' && s[1] == 'u' && s[2] == 'l';
    SkipWsTo(s, 0, 0);
    StringMeans(s, 0, st.strict);
    NumberMeans(st.number, s, 0);
    BoolMeans(s, 0);
    NullMeans(s, 0, st.strict);
    assert !StartsWith(s, 0, "null");
    assert ParseScalar(st, s, 0).Fail?;
  }

  // ----- Escapes inside strings -----

  /** A string holding one escape `\c`: it decodes to what `Unescape`
      gives for `c` under that delimiter. */
  lemma {:induction false} EscapeAt(s: string, j: nat, delim: char, strict: bool)
    requires j + 3 < |s| && s[j] == delim && s[j + 1] == '\\' && s[j + 3] == delim
    requires delim == '"' || (delim == '\'' && !strict)
    ensures ParseString(s, j, strict) == Ok(Unescape(s[j + 2], delim), j + 4)
  {
    if delim == '"' {
      MatchHere(s, j, "\"");
    } else {
      NoMatchHere(s, j, "\"");
    }
    assert DecodeBody(s, j + 3, delim) == Ok([], j + 4);
    assert Unescape(s[j + 2], delim) + [] == Unescape(s[j + 2], delim);
  }

  /** `"\/"`: an escaped slash is a slash. */
  lemma {:induction false} SlashEscape(s: string, strict: bool)
    requires Spells(s, "\"\\/\"")
    ensures ParseString(s, 0, strict) == Ok("/", 4)
  {
    assert s[0] == '"' && s[1] == '\\' && s[2] == '/' && s[3] == '"';
    EscapeAt(s, 0, '"', strict);
  }

  /** `\c` with `c` none of the escapes the decoder knows and not the
      delimiter: the backslash is kept along with the character. */
  lemma {:induction false} UnknownEscapeKept(s: string, j: nat, delim: char, strict: bool)
    requires j + 3 < |s| && s[j] == delim && s[j + 1] == '\\' && s[j + 3] == delim
    requires delim == '"' || (delim == '\'' && !strict)
    requires s[j + 2] !in "\\/bfnrt" && s[j + 2] != delim
    ensures ParseString(s, j, strict) == Ok(['\\', s[j + 2]], j + 4)
  {
    EscapeAt(s, j, delim, strict);
  }

  /** `'\''`, not strict: an escaped delimiter is the bare delimiter. The
      same escape inside double quotes, `"\'"`, keeps its backslash. */
  lemma {:induction false} EscapedDelimiter(s: string, t: string)
    requires Spells(s, "'\\''") && Spells(t, "\"\\'\"")
    ensures ParseString(s, 0, false) == Ok("'", 4)
    ensures ParseString(t, 0, false) == Ok("\\'", 4)
  {
    assert s[0] == '\'' && s[1] == '\\' && s[2] == '\'' && s[3] == '\'';
    EscapeAt(s, 0, '\'', false);
    assert t[0] == '"' && t[1] == '\\' && t[2] == '\'' && t[3] == '"';
    EscapeAt(t, 0, '"', false);
  }
}

=== FILE: roundtrip.dfy ===
/** Parsing what the JSON serialiser writes gives back the tree written,
    up to the precision of the printed numbers: `parse(serialize(v))` is
    `v` with each number replaced by the number read back from its
    printout, for every well-formed value whose strings use only characters
    `stream_string` writes in a form `parse_string` decodes, and whose
    numbers print as text the platform reads back as a number. It is `v`
    itself when every number reads back as itself. */
module RoundTrip {
  import opened Tokens
  import opened JsonValue
  import opened Scalars
  import opened Parser
  import opened JsonWriter

  /** Printable 7-bit characters and the five named controls: the
      characters whose escaped form decodes to themselves. */
  predicate Plain(c: char) {
    (32 <= c as int < 128) || c == Backspace || c == FormFeed || c == '\n' || c == '\r' || c == '\t'
  }

  predicate PlainString(str: string) {
    forall k :: 0 <= k < |str| ==> Plain(str[k])
  }

  /** The number the platform reads from the printout of `n` standing
      alone, or `n` itself when the printout does not read as a number. */
  function ReadBack(scan: Scanner, show: Number -> string, n: Number): Number {
    match scan(show(n), 0)
    case Scanned(m, _) => m
    case Rejected(_) => n
  }

  /** The printout of `n` reads back as a number, the same one wherever it
      stands, and the conversion stops at the end of the printout, in front
      of the comma, bracket or brace the serialiser writes after it. The
      number read need not be `n`: `ostream << double` prints six
      significant digits unless told otherwise. */
  ghost predicate ReadsBack(scan: Scanner, show: Number -> string, n: Number) {
    forall s: string, p: nat {:trigger scan(s, p)} ::
      StartsWith(s, p, show(n)) && Delimits(s, p + |show(n)|) ==> scan(s, p) == Scanned(ReadBack(scan, show, n), |show(n)|)
  }

  /** Every string and every key in the tree is plain, and every number in
      it reads back from its printout. */
  ghost predicate Readable(scan: Scanner, show: Number -> string, v: Value)
    decreases v
  {
    match v
    case Str(str) => PlainString(str)
    case Num(n) => ReadsBack(scan, show, n)
    case Arr(vs) => forall k :: 0 <= k < |vs| ==> Readable(scan, show, vs[k])
    case Obj(ms) => forall k :: 0 <= k < |ms| ==> PlainString(ms[k].0) && Readable(scan, show, ms[k].1)
    case _ => true
  }

  /** The tree the parser rebuilds from the rendering of `v`: `v` with
      every number replaced by the number read back from its printout. */
  function Back(scan: Scanner, show: Number -> string, v: Value): Value
    decreases v
  {
    match v
    case Num(n) => Num(ReadBack(scan, show, n))
    case Arr(vs) => Arr(BackElements(scan, show, vs))
    case Obj(ms) => Obj(BackMembers(scan, show, ms))
    case _ => v
  }

  function BackElements(scan: Scanner, show: Number -> string, vs: seq<Value>): (r: seq<Value>)
    ensures |r| == |vs| && forall k :: 0 <= k < |vs| ==> r[k] == Back(scan, show, vs[k])
    decreases vs
  {
    if |vs| == 0 then [] else [Back(scan, show, vs[0])] + BackElements(scan, show, vs[1..])
  }

  function BackMember(scan: Scanner, show: Number -> string, m: (string, Value)): (string, Value)
    decreases m
  {
    (m.0, Back(scan, show, m.1))
  }

  function BackMembers(scan: Scanner, show: Number -> string, ms: seq<(string, Value)>): (r: seq<(string, Value)>)
    ensures |r| == |ms| && forall k :: 0 <= k < |ms| ==> r[k] == BackMember(scan, show, ms[k])
    decreases ms
  {
    if |ms| == 0 then [] else [BackMember(scan, show, ms[0])] + BackMembers(scan, show, ms[1..])
  }

  /** Reading numbers back keeps every key, so a well-formed tree stays
      well-formed. */
  lemma {:induction false} BackWellFormed(scan: Scanner, show: Number -> string, v: Value)
    requires WellFormed(v)
    ensures WellFormed(Back(scan, show, v))
    decreases v
  {
    match v
    case Arr(vs) =>
      forall k | 0 <= k < |vs| ensures WellFormed(Back(scan, show, vs[k])) {
        BackWellFormed(scan, show, vs[k]);
      }
    case Obj(ms) =>
      forall k | 0 <= k < |ms| ensures WellFormed(Back(scan, show, ms[k].1)) {
        BackWellFormed(scan, show, ms[k].1);
      }
    case _ =>
  }

  /** Every number in the tree reads back as itself. */
  ghost predicate Exact(scan: Scanner, show: Number -> string, v: Value)
    decreases v
  {
    match v
    case Num(n) => ReadBack(scan, show, n) == n
    case Arr(vs) => forall k :: 0 <= k < |vs| ==> Exact(scan, show, vs[k])
    case Obj(ms) => forall k :: 0 <= k < |ms| ==> Exact(scan, show, ms[k].1)
    case _ => true
  }

  /** The tree read back is the tree written exactly when every number in
      it reads back as itself. */
  lemma {:induction false} BackExact(scan: Scanner, show: Number -> string, v: Value)
    ensures Back(scan, show, v) == v <==> Exact(scan, show, v)
    decreases v
  {
    match v
    case Arr(vs) =>
      forall k | 0 <= k < |vs| ensures Back(scan, show, vs[k]) == vs[k] <==> Exact(scan, show, vs[k]) {
        BackExact(scan, show, vs[k]);
      }
      if Exact(scan, show, v) {
        assert BackElements(scan, show, vs) == vs;
      }
    case Obj(ms) =>
      forall k | 0 <= k < |ms| ensures Back(scan, show, ms[k].1) == ms[k].1 <==> Exact(scan, show, ms[k].1) {
        BackExact(scan, show, ms[k].1);
      }
      if Exact(scan, show, v) {
        assert BackMembers(scan, show, ms) == ms;
      } else {
        var k :| 0 <= k < |ms| && !Exact(scan, show, ms[k].1);
        assert BackMembers(scan, show, ms)[k] != ms[k];
      }
    case _ =>
  }

  /** What the round trip needs of a value: readable, and the tree read
      back keeps its keys in order at every depth. */
  ghost predicate Writable(scan: Scanner, show: Number -> string, v: Value) {
    WellFormed(Back(scan, show, v)) && Readable(scan, show, v)
  }

  /** A member with a plain key and a readable value. */
  ghost predicate PlainMember(scan: Scanner, show: Number -> string, m: (string, Value)) {
    PlainString(m.0) && Readable(scan, show, m.1)
  }

  /** Whitespace only, from `i` up to `j`. */
  ghost predicate Spaces(s: string, i: nat, j: nat) {
    i <= j <= |s| && forall k :: i <= k < j ==> IsSpace(s[k])
  }

  /** What may follow a rendered value: the end of the input, or the comma,
      bracket or brace of an enclosing container. */
  predicate Delimits(s: string, k: nat) {
    k == |s| || (k < |s| && (s[k] == ',' || s[k] == ']' || s[k] == '}'))
  }

  lemma {:induction false} StartsWithConcat(s: string, j: nat, a: string, b: string)
    requires StartsWith(s, j, a + b)
    ensures StartsWith(s, j, a) && StartsWith(s, j + |a|, b)
  {
    forall k | 0 <= k < |a| ensures s[j + k] == a[k] {
      assert (a + b)[k] == a[k];
    }
    forall k | 0 <= k < |b| ensures s[j + |a| + k] == b[k] {
      assert (a + b)[|a| + k] == b[k];
    }
  }

  lemma {:induction false} StartsWithChar(s: string, j: nat, t: string)
    requires StartsWith(s, j, t) && |t| > 0
    ensures s[j] == t[0]
  {
    assert s[j + 0] == t[0];
  }

  /** A body between two delimiters: the delimiters and the body where they
      belong. */
  lemma {:induction false} Bracketed(s: string, j: nat, open: string, body: string, close: string)
    requires |open| == 1 && |close| == 1
    requires StartsWith(s, j, open + body + close)
    ensures s[j] == open[0] && s[j + 1 + |body|] == close[0]
    ensures StartsWith(s, j + 1, body)
  {
    var w := open + body + close;
    assert s[j + 0] == w[0];
    assert s[j + (1 + |body|)] == w[1 + |body|];
    forall k | 0 <= k < |body| ensures s[j + 1 + k] == body[k] {
      assert s[j + (1 + k)] == w[1 + k];
    }
  }

  /** Two pieces joined by a two-character separator. */
  lemma {:induction false} Joined(s: string, j: nat, a: string, sep: string, b: string)
    requires |sep| == 2 && StartsWith(s, j, a + sep + b)
    ensures StartsWith(s, j, a) && StartsWith(s, j + |a| + 2, b)
    ensures s[j + |a|] == sep[0] && s[j + |a| + 1] == sep[1]
  {
    var w := a + sep + b;
    forall k | 0 <= k < |a| ensures s[j + k] == a[k] {
      assert w[k] == a[k];
    }
    assert s[j + |a|] == w[|a|];
    assert s[j + (|a| + 1)] == w[|a| + 1];
    forall k | 0 <= k < |b| ensures s[j + |a| + 2 + k] == b[k] {
      assert s[j + (|a| + 2 + k)] == w[|a| + 2 + k];
    }
  }

  /** How `stream_string` writes a plain character: as itself, when it is
      neither a quote nor a backslash, or as a backslash and a character
      that `parse_string` decodes back to it. */
  lemma {:induction false} PlainEscape(c: char)
    requires Plain(c)
    ensures var e := EscapeChar(c);
      || (e == [c] && c != '"' && c != '\\')
      || (|e| == 2 && e[0] == '\\' && Unescape(e[1], '"') == [c])
  {
  }

  /** The escaped form of `str` lies in the input from `j` to `e`. */
  predicate EscapedIn(s: string, j: nat, str: string, e: nat) {
    StartsWith(s, j, Escaped(str)) && e == j + |Escaped(str)|
  }

  /** The body loop of `parse_string`, started at `j`, reads `str` and
      stops after the closing double quote, at `e`. */
  predicate BodyReads(s: string, j: nat, str: string, e: nat)
    requires j <= |s|
  {
    DecodeBody(s, j, '"') == Ok(str, e)
  }

  /** An escaped string is its first character escaped, then the rest. */
  lemma {:induction false} EscapedSplit(s: string, j: nat, str: string, e: nat)
    requires |str| > 0 && EscapedIn(s, j, str, e)
    ensures StartsWith(s, j, EscapeChar(str[0]))
    ensures EscapedIn(s, j + |EscapeChar(str[0])|, str[1..], e)
  {
    StartsWithConcat(s, j, EscapeChar(str[0]), Escaped(str[1..]));
  }

  /** The escaped first character of a plain string, in front of the rest
      of the body, decodes to the string. */
  lemma {:induction false} EscapeStep(str: string, s: string, j: nat, k: nat, m: nat)
    requires |str| > 0 && Plain(str[0])
    requires StartsWith(s, j, EscapeChar(str[0]))
    requires k <= |s| && BodyReads(s, k, str[1..], m)
    requires k == j + |EscapeChar(str[0])|
    ensures BodyReads(s, j, str, m)
  {
    var e := EscapeChar(str[0]);
    PlainEscape(str[0]);
    assert s[j + 0] == e[0];
    if |e| == 2 {
      assert s[j + 1] == e[1];
    }
    assert [str[0]] + str[1..] == str;
  }

  /** The escaped form of a plain string, followed by a double quote,
      decodes back to the string. */
  lemma {:induction false} StringRoundTrip(str: string, s: string, j: nat, e: nat)
    requires PlainString(str)
    requires EscapedIn(s, j, str, e) && PeekIs(s, e, '"')
    ensures BodyReads(s, j, str, e + 1)
    decreases |str|
  {
    if |str| > 0 {
      var k := j + |EscapeChar(str[0])|;
      EscapedSplit(s, j, str, e);
      assert PlainString(str[1..]);
      StringRoundTrip(str[1..], s, k, e);
      EscapeStep(str, s, j, k, e + 1);
    }
  }

  /** `parse_string` reads back what `stream_string` wrote. */
  lemma {:induction false} StreamStringRoundTrip(str: string, strict: bool)
    requires PlainString(str)
    ensures ParseString(StreamString(str), 0, strict) == Ok(str, |StreamString(str)|)
  {
    var s := StreamString(str);
    Bracketed(s, 0, "\"", Escaped(str), "\"");
    MatchHere(s, 0, "\"");
    StringRoundTrip(str, s, 1, 1 + |Escaped(str)|);
  }

  /** The first character of a rendered value is not whitespace, and names
      the alternative of `Value::parse` that reads it. */
  lemma {:induction false} RenderedStart(st: Settings, show: Number -> string, v: Value)
    requires v.Num? ==> ReadsBack(st.number, show, v.n)
    ensures |Render(show, v)| > 0
    ensures var c := Render(show, v)[0];
      && !IsSpace(c)
      && (v.Num? ==> NumberStart(c))
      && (v.Str? ==> c == '"')
      && (v.Bool? ==> c == (if v.b then 't' else 'f'))
      && (v.Null? ==> c == 'n')
      && (v.Arr? ==> c == '[')
      && (v.Obj? ==> c == '{')
  {
    if v.Num? {
      var t := show(v.n);
      assert StartsWith(t, 0, t);
      assert st.number(t, 0) == Scanned(ReadBack(st.number, show, v.n), |t|);
    }
  }

  /** `Value::parse` reads `v` from `i` and leaves the cursor at `e`. The
      parser facts below are stated through these names so that each proof
      sees one unfolding of the parser at a time. */
  predicate ValueReads(st: Settings, s: string, i: nat, v: Value, e: nat)
    requires i <= |s|
  {
    ParseValue(st, s, i) == Ok(v, e)
  }

  /** `Array::parse` reads the elements `vs` from `i`, up to `e`. */
  predicate ArrayReads(st: Settings, s: string, i: nat, vs: seq<Value>, e: nat)
    requires i <= |s|
  {
    ParseArray(st, s, i) == Ok(vs, e)
  }

  /** The element loop, started at `a`, reads `vs` and stops at `e`. */
  predicate ElementsRead(st: Settings, s: string, a: nat, vs: seq<Value>, e: nat)
    requires a <= |s|
  {
    Elements(st, s, a) == (vs, e)
  }

  /** `Object::parse` reads the members `ms` from `i`, up to `e`. */
  predicate ObjectReads(st: Settings, s: string, i: nat, ms: seq<(string, Value)>, e: nat)
    requires i <= |s|
  {
    ParseObject(st, s, i) == Ok(ms, e)
  }

  /** The member loop, started at `b` with the members `acc` already
      stored, ends with the members `ms` at `e`. */
  predicate MembersRead(st: Settings, s: string, b: nat, acc: seq<(string, Value)>, ms: seq<(string, Value)>, e: nat)
    requires b <= |s|
  {
    Members(st, s, b, acc) == Ok(ms, e)
  }

  /** The rest of a pass of the member loop, from `d` after the colon with
      the key `key` read, ends with the members `ms` at `e`. */
  predicate MemberValueRead(st: Settings, s: string, d: nat, acc: seq<(string, Value)>, key: string,
                            ms: seq<(string, Value)>, e: nat)
    requires d <= |s|
  {
    MemberValue(st, s, d, acc, key) == Ok(ms, e)
  }

  /** The written form of `v` lies in the input from `j` to `e`. The writer
      facts below are stated through these names so that each proof sees
      one unfolding of the serialiser at a time. */
  predicate RenderedIn(show: Number -> string, s: string, j: nat, v: Value, e: nat) {
    StartsWith(s, j, Render(show, v)) && e == j + |Render(show, v)|
  }

  /** The written elements `vs` lie in the input from `j` to `e`. */
  predicate ElementsIn(show: Number -> string, s: string, j: nat, vs: seq<Value>, e: nat) {
    StartsWith(s, j, RenderElements(show, vs)) && e == j + |RenderElements(show, vs)|
  }

  /** The written member `m` lies in the input from `j` to `e`. */
  predicate MemberIn(show: Number -> string, s: string, j: nat, m: (string, Value), e: nat) {
    StartsWith(s, j, RenderMember(show, m)) && e == j + |RenderMember(show, m)|
  }

  /** The written members `ms` lie in the input from `j` to `e`. */
  predicate MembersIn(show: Number -> string, s: string, j: nat, ms: seq<(string, Value)>, e: nat) {
    StartsWith(s, j, RenderMembers(show, ms)) && e == j + |RenderMembers(show, ms)|
  }

  /** A `]` where an element should be: the element loop ends at once,
      without consuming anything. */
  lemma {:induction false} NoElementAt(st: Settings, s: string, a: nat)
    requires a < |s| && s[a] == ']'
    ensures ElementsRead(st, s, a, [], a)
  {
    SkipWsTo(s, a, a);
    ScalarFailsInPlace(st, s, a);
    NoMatchHere(s, a, "{");
    assert ParseValue(st, s, a) == Fail(a);
  }

  /** `parse_string` reads back a string `stream_string` wrote. */
  lemma {:induction false} StringAt(s: string, i: nat, j: nat, str: string, e: nat, strict: bool)
    requires i <= j <= |s| && SkipWs(s, i) == j
    requires PlainString(str) && StartsWith(s, j, StreamString(str))
    requires e == j + |StreamString(str)|
    ensures ParseString(s, i, strict) == Ok(str, e)
  {
    Bracketed(s, j, "\"", Escaped(str), "\"");
    MatchHere(s, j, "\"");
    StringRoundTrip(str, s, j + 1, j + 1 + |Escaped(str)|);
  }

  /** A written number, followed by a delimiter, is read back by the
      number alternative after the string alternative fails in place. */
  lemma {:induction false} NumberAt(st: Settings, show: Number -> string, n: Number, s: string, i: nat, j: nat, e: nat)
    requires ReadsBack(st.number, show, n)
    requires i <= j <= |s| && SkipWs(s, i) == j
    requires StartsWith(s, j, show(n)) && Delimits(s, e)
    requires e == j + |show(n)|
    ensures ParseScalar(st, s, i) == Ok(Num(ReadBack(st.number, show, n)), e)
  {
    RenderedStart(st, show, Num(n));
    StartsWithChar(s, j, show(n));
    StringMeans(s, i, st.strict);
    SkipWsTo(s, j, j);
    assert st.number(s, j) == Scanned(ReadBack(st.number, show, n), |show(n)|);
  }

  /** `true`, `false` and `null` are read back by their alternatives, after
      the string and number alternatives fail in place. */
  lemma {:induction false} WordAt(st: Settings, show: Number -> string, v: Value, s: string, i: nat, j: nat, e: nat)
    requires v.Bool? || v.Null?
    requires i <= j <= |s| && SkipWs(s, i) == j
    requires RenderedIn(show, s, j, v, e)
    ensures ParseScalar(st, s, i) == Ok(v, e)
  {
    RenderedStart(st, show, v);
    StartsWithChar(s, j, Render(show, v));
    StringMeans(s, i, st.strict);
    SkipWsTo(s, j, j);
    NumberMeans(st.number, s, j);
    BoolMeans(s, j);
    if v.Null? {
      NullMeans(s, j, st.strict);
    }
  }

  /** A written scalar, found after whitespace and followed by a
      delimiter, is read back by `Value::parse`. */
  lemma {:induction false} ScalarRoundTrip(st: Settings, show: Number -> string, v: Value, s: string, i: nat, j: nat, e: nat)
    requires !v.Arr? && !v.Obj? && Readable(st.number, show, v)
    requires i <= j <= |s| && SkipWs(s, i) == j
    requires RenderedIn(show, s, j, v, e) && Delimits(s, e)
    ensures ValueReads(st, s, i, Back(st.number, show, v), e)
  {
    match v
    case Str(str) =>
      StringAt(s, i, j, str, e, st.strict);
    case Num(n) =>
      NumberAt(st, show, n, s, i, j, e);
    case _ =>
      WordAt(st, show, v, s, i, j, e);
  }

  /** At a `[`, after the scalar alternatives fail in place, `Value::parse`
      reads what `Array::parse` reads. */
  lemma {:induction false} ArrayValue(st: Settings, s: string, i: nat, j: nat, vs: seq<Value>, e: nat)
    requires i <= j < |s| && SkipWs(s, i) == j && s[j] == '['
    requires ArrayReads(st, s, j, vs, e)
    ensures ValueReads(st, s, i, Arr(vs), e)
  {
    ScalarFailsInPlace(st, s, i);
  }

  /** At a `{`, after the scalar alternatives fail in place, `Value::parse`
      reads what `Object::parse` reads. */
  lemma {:induction false} ObjectValue(st: Settings, s: string, i: nat, j: nat, ms: seq<(string, Value)>, e: nat)
    requires i <= j < |s| && SkipWs(s, i) == j && s[j] == '{'
    requires ObjectReads(st, s, j, ms, e)
    ensures ValueReads(st, s, i, Obj(ms), e)
  {
    ScalarFailsInPlace(st, s, i);
  }

  /** `Array::parse` from its parts: `[`, the elements, `]`. */
  lemma {:induction false} ArrayStep(st: Settings, s: string, j: nat, vs: seq<Value>, e: nat)
    requires j < e < |s| && s[j] == '[' && s[e] == ']'
    requires ElementsRead(st, s, j + 1, vs, e)
    ensures ArrayReads(st, s, j, vs, e + 1)
  {
    MatchHere(s, j, "[");
    MatchHere(s, e, "]");
  }

  /** `[]` is read as the empty array. */
  lemma {:induction false} EmptyArrayAt(st: Settings, s: string, j: nat)
    requires j + 1 < |s| && s[j] == '[' && s[j + 1] == ']'
    ensures ArrayReads(st, s, j, [], j + 2)
  {
    NoElementAt(st, s, j + 1);
    ArrayStep(st, s, j, [], j + 1);
  }

  /** A written array: `[`, the elements, `]`. */
  lemma {:induction false} ArraySplit(show: Number -> string, vs: seq<Value>, s: string, j: nat, e: nat)
    requires RenderedIn(show, s, j, Arr(vs), e)
    ensures j + 2 <= e <= |s| && s[j] == '[' && s[e - 1] == ']'
    ensures ElementsIn(show, s, j + 1, vs, e - 1)
  {
    Bracketed(s, j, "[", RenderElements(show, vs), "]");
  }

  /** `Array::parse` reads back a written array. */
  lemma {:induction false} ArrayRoundTrip(st: Settings, show: Number -> string, vs: seq<Value>, s: string, j: nat, e: nat)
    requires forall k :: 0 <= k < |vs| ==> Writable(st.number, show, vs[k])
    requires RenderedIn(show, s, j, Arr(vs), e)
    ensures ArrayReads(st, s, j, BackElements(st.number, show, vs), e)
    decreases vs, 4
  {
    ArraySplit(show, vs, s, j, e);
    if |vs| == 0 {
      EmptyArrayAt(st, s, j);
    } else {
      ArrayBody(st, show, vs, s, j, e);
    }
  }

  /** `Array::parse` reads back `[`, written elements, and `]`. */
  lemma {:induction false} ArrayBody(st: Settings, show: Number -> string, vs: seq<Value>, s: string, j: nat, e: nat)
    requires |vs| > 0 && forall k :: 0 <= k < |vs| ==> Writable(st.number, show, vs[k])
    requires j + 2 <= e <= |s| && s[j] == '[' && s[e - 1] == ']'
    requires ElementsIn(show, s, j + 1, vs, e - 1)
    ensures ArrayReads(st, s, j, BackElements(st.number, show, vs), e)
    decreases vs, 3
  {
    ElementsRoundTrip(st, show, vs, s, j + 1, j + 1, e - 1);
    ArrayStep(st, s, j, BackElements(st.number, show, vs), e - 1);
  }


  /** `Object::parse` from its parts: `{`, a key rather than `}`, the
      members, `}`. */
  lemma {:induction false} ObjectStep(st: Settings, s: string, j: nat, ms: seq<(string, Value)>, e: nat)
    requires j + 1 < e < |s| && s[j] == '{' && s[j + 1] == '"' && s[e] == '}'
    requires MembersRead(st, s, j + 1, [], ms, e)
    ensures ObjectReads(st, s, j, ms, e + 1)
  {
    MatchHere(s, j, "{");
    NoMatchHere(s, j + 1, "}");
    MatchHere(s, e, "}");
  }

  /** `{}` is read as the empty object. */
  lemma {:induction false} EmptyObjectAt(st: Settings, s: string, j: nat)
    requires j + 1 < |s| && s[j] == '{' && s[j + 1] == '}'
    ensures ObjectReads(st, s, j, [], j + 2)
  {
    MatchHere(s, j, "{");
    MatchHere(s, j + 1, "}");
  }

  /** Written members begin with the double quote of the first key. */
  lemma {:induction false} MembersStart(show: Number -> string, ms: seq<(string, Value)>)
    requires |ms| > 0
    ensures |RenderMembers(show, ms)| > 0 && RenderMembers(show, ms)[0] == '"'
  {
    var m0 := RenderMember(show, ms[0]);
    assert m0[0] == StreamString(ms[0].0)[0];
    if |ms| > 1 {
      assert RenderMembers(show, ms)[0] == m0[0];
    }
  }

  /** A written object: `{`, the members, `}`; the members, if any, begin
      with a double quote. */
  lemma {:induction false} ObjectSplit(show: Number -> string, ms: seq<(string, Value)>, s: string, j: nat, e: nat)
    requires RenderedIn(show, s, j, Obj(ms), e)
    ensures j + 2 <= e <= |s| && s[j] == '{' && s[e - 1] == '}'
    ensures MembersIn(show, s, j + 1, ms, e - 1)
    ensures |ms| > 0 ==> s[j + 1] == '"'
  {
    var body := RenderMembers(show, ms);
    Bracketed(s, j, "{", body, "}");
    if |ms| > 0 {
      MembersStart(show, ms);
      assert s[j + 1 + 0] == body[0];
    }
  }

  /** `Object::parse` reads back a written object. */
  lemma {:induction false} ObjectRoundTrip(st: Settings, show: Number -> string, ms: seq<(string, Value)>, s: string, j: nat, e: nat)
    requires WellFormedMembers(BackMembers(st.number, show, ms))
    requires forall k :: 0 <= k < |ms| ==> PlainMember(st.number, show, ms[k])
    requires RenderedIn(show, s, j, Obj(ms), e)
    ensures ObjectReads(st, s, j, BackMembers(st.number, show, ms), e)
    decreases ms, 5
  {
    ObjectSplit(show, ms, s, j, e);
    if |ms| == 0 {
      EmptyObjectAt(st, s, j);
    } else {
      ObjectBody(st, show, ms, s, j, e);
    }
  }

  /** `Object::parse` reads back `{`, written members, and `}`. */
  lemma {:induction false} ObjectBody(st: Settings, show: Number -> string, ms: seq<(string, Value)>, s: string, j: nat, e: nat)
    requires |ms| > 0 && WellFormedMembers(BackMembers(st.number, show, ms))
    requires forall k :: 0 <= k < |ms| ==> PlainMember(st.number, show, ms[k])
    requires j + 2 <= e <= |s| && s[j] == '{' && s[j + 1] == '"' && s[e - 1] == '}'
    requires MembersIn(show, s, j + 1, ms, e - 1)
    ensures ObjectReads(st, s, j, BackMembers(st.number, show, ms), e)
    decreases ms, 4
  {
    MembersFromEmpty(st, show, ms, s, j + 1, e - 1);
    ObjectStep(st, s, j, BackMembers(st.number, show, ms), e - 1);
  }

  /** The member loop, starting with no members stored, reads back written
      members followed by `}`. */
  lemma {:induction false} MembersFromEmpty(st: Settings, show: Number -> string, ms: seq<(string, Value)>, s: string, j: nat, f: nat)
    requires |ms| > 0 && WellFormedMembers(BackMembers(st.number, show, ms))
    requires forall k :: 0 <= k < |ms| ==> PlainMember(st.number, show, ms[k])
    requires MembersIn(show, s, j, ms, f) && PeekIs(s, f, '}')
    ensures MembersRead(st, s, j, [], BackMembers(st.number, show, ms), f)
    decreases ms, 3
  {
    assert [] + BackMembers(st.number, show, ms) == BackMembers(st.number, show, ms);
    MembersRoundTrip(st, show, ms, s, j, j, f, []);
  }


  /** `Value::parse` reads back a written value found after whitespace and
      followed by a delimiter. */
  lemma {:induction false} ValueRoundTrip(st: Settings, show: Number -> string, v: Value, s: string, i: nat, j: nat, e: nat)
    requires Writable(st.number, show, v)
    requires Spaces(s, i, j) && RenderedIn(show, s, j, v, e)
    requires Delimits(s, e)
    ensures ValueReads(st, s, i, Back(st.number, show, v), e)
    decreases v, 2
  {
    RenderedStart(st, show, v);
    StartsWithChar(s, j, Render(show, v));
    SkipWsTo(s, i, j);
    match v
    case Arr(vs) =>
      ElementsWritable(st.number, show, vs);
      ArrayRoundTrip(st, show, vs, s, j, e);
      ArrayValue(st, s, i, j, BackElements(st.number, show, vs), e);
    case Obj(ms) =>
      ObjectRoundTrip(st, show, ms, s, j, e);
      ObjectValue(st, s, i, j, BackMembers(st.number, show, ms), e);
    case _ =>
      ScalarRoundTrip(st, show, v, s, i, j, e);
  }

  /** The last pass of the element loop: a value and `]` after it. */
  lemma {:induction false} ElementsLast(st: Settings, s: string, i: nat, v: Value, b: nat)
    requires i <= b < |s| && s[b] == ']'
    requires ValueReads(st, s, i, v, b)
    ensures ElementsRead(st, s, i, [v], b)
  {
    NoMatchHere(s, b, ",");
  }

  /** A pass of the element loop that goes on: the first value, a comma,
      and the other elements after it. */
  lemma {:induction false} ElementsNext(st: Settings, s: string, i: nat, vs: seq<Value>, b: nat, e: nat)
    requires |vs| > 0 && i <= b < |s| && s[b] == ','
    requires ValueReads(st, s, i, vs[0], b)
    requires ElementsRead(st, s, b + 1, vs[1..], e)
    ensures ElementsRead(st, s, i, vs, e)
  {
    MatchHere(s, b, ",");
    assert [vs[0]] + vs[1..] == vs;
  }

  /** A written value and `]` after it: the element loop reads the value
      and stops. */
  lemma {:induction false} ElementsSingle(st: Settings, show: Number -> string, v: Value, s: string, i: nat, j: nat, e: nat)
    requires Writable(st.number, show, v)
    requires Spaces(s, i, j) && RenderedIn(show, s, j, v, e)
    requires PeekIs(s, e, ']')
    ensures ElementsRead(st, s, i, [Back(st.number, show, v)], e)
    decreases v, 3
  {
    ValueRoundTrip(st, show, v, s, i, j, e);
    ElementsLast(st, s, i, Back(st.number, show, v), e);
  }

  /** One written element is the written value. */
  lemma {:induction false} ElementsOne(show: Number -> string, vs: seq<Value>, s: string, j: nat, e: nat)
    requires |vs| == 1 && ElementsIn(show, s, j, vs, e)
    ensures RenderedIn(show, s, j, vs[0], e)
  {
  }

  /** Two or more written elements: the first, a comma and a space, and
      the rest. */
  lemma {:induction false} ElementsSplit(show: Number -> string, vs: seq<Value>, s: string, j: nat, e: nat)
    requires |vs| > 1 && ElementsIn(show, s, j, vs, e)
    ensures var b := j + |Render(show, vs[0])|;
      && RenderedIn(show, s, j, vs[0], b) && PeekIs(s, b, ',') && Spaces(s, b + 1, b + 2)
      && ElementsIn(show, s, b + 2, vs[1..], e)
  {
    var r0 := Render(show, vs[0]);
    var rest := RenderElements(show, vs[1..]);
    assert RenderElements(show, vs) == r0 + ", " + rest;
    Joined(s, j, r0, ", ", rest);
  }

  /** The element loop of `Array::parse` reads back written elements that
      are followed by the closing bracket. */
  lemma {:induction false} ElementsRoundTrip(st: Settings, show: Number -> string, vs: seq<Value>, s: string, i: nat, j: nat, e: nat)
    requires |vs| > 0
    requires forall k :: 0 <= k < |vs| ==> Writable(st.number, show, vs[k])
    requires Spaces(s, i, j) && ElementsIn(show, s, j, vs, e)
    requires PeekIs(s, e, ']')
    ensures ElementsRead(st, s, i, BackElements(st.number, show, vs), e)
    decreases vs, 2
  {
    if |vs| == 1 {
      ElementsOne(show, vs, s, j, e);
      assert BackElements(st.number, show, vs) == [Back(st.number, show, vs[0])];
      ElementsSingle(st, show, vs[0], s, i, j, e);
    } else {
      ElementsMany(st, show, vs, s, i, j, e);
    }
  }


  /** What holds of every element holds of the first and of the rest. */
  lemma {:induction false} ElementsTail(scan: Scanner, show: Number -> string, vs: seq<Value>)
    requires |vs| > 0 && forall k :: 0 <= k < |vs| ==> Writable(scan, show, vs[k])
    ensures Writable(scan, show, vs[0])
    ensures forall k :: 0 <= k < |vs[1..]| ==> Writable(scan, show, vs[1..][k])
  {
    assert forall k :: 0 <= k < |vs[1..]| ==> vs[1..][k] == vs[k + 1];
  }

  /** Two or more written elements: the first, a comma and a space, and
      the rest, which the loop reads in turn. */
  lemma {:induction false} ElementsMany(st: Settings, show: Number -> string, vs: seq<Value>, s: string, i: nat, j: nat, e: nat)
    requires |vs| > 1
    requires forall k :: 0 <= k < |vs| ==> Writable(st.number, show, vs[k])
    requires Spaces(s, i, j) && ElementsIn(show, s, j, vs, e)
    requires PeekIs(s, e, ']')
    ensures ElementsRead(st, s, i, BackElements(st.number, show, vs), e)
    decreases vs, 1
  {
    var b := j + |Render(show, vs[0])|;
    ElementsSplit(show, vs, s, j, e);
    ElementsTail(st.number, show, vs);
    ElementsRest(st, show, vs, s, i, j, b, e);
  }

  /** A written value, a comma and a space, and written elements up to
      `]`: the loop reads the value and then the rest. */
  lemma {:induction false} ElementsRest(st: Settings, show: Number -> string, vs: seq<Value>, s: string, i: nat, j: nat, b: nat, e: nat)
    requires |vs| > 1 && Writable(st.number, show, vs[0])
    requires forall k :: 0 <= k < |vs[1..]| ==> Writable(st.number, show, vs[1..][k])
    requires Spaces(s, i, j) && RenderedIn(show, s, j, vs[0], b)
    requires PeekIs(s, b, ',') && Spaces(s, b + 1, b + 2)
    requires ElementsIn(show, s, b + 2, vs[1..], e) && PeekIs(s, e, ']')
    ensures ElementsRead(st, s, i, BackElements(st.number, show, vs), e)
    decreases vs, 0
  {
    var ws := BackElements(st.number, show, vs);
    ElementsRoundTrip(st, show, vs[1..], s, b + 1, b + 2, e);
    ValueRoundTrip(st, show, vs[0], s, i, j, b);
    assert ws[1..] == BackElements(st.number, show, vs[1..]);
    ElementsNext(st, s, i, ws, b, e);
  }


  /** `parse_string` reads the key `key` from `b` and leaves the cursor at
      `c`. */
  predicate KeyReads(st: Settings, s: string, b: nat, key: string, c: nat)
    requires b <= |s|
  {
    ParseString(s, b, st.strict) == Ok(key, c)
  }

  /** A pass of the member loop from its parts: a key, a colon, and the
      rest of the pass after the colon. */
  lemma {:induction false} KeyStep(st: Settings, s: string, b: nat, acc: seq<(string, Value)>, key: string, c: nat,
                                   ms: seq<(string, Value)>, f: nat)
    requires b <= c < |s| && s[c] == ':'
    requires KeyReads(st, s, b, key, c)
    requires MemberValueRead(st, s, c + 1, acc, key, ms, f)
    ensures MembersRead(st, s, b, acc, ms, f)
  {
    MatchHere(s, c, ":");
  }

  /** The last pass of the member loop, after the colon: a value and `}`
      after it; the member is stored. */
  lemma {:induction false} MemberValueLast(st: Settings, s: string, d: nat, acc: seq<(string, Value)>, key: string, v: Value, e: nat,
                                           acc': seq<(string, Value)>)
    requires d <= e < |s| && s[e] == '}'
    requires ValueReads(st, s, d, v, e)
    requires acc' == Put(acc, key, v)
    ensures MemberValueRead(st, s, d, acc, key, acc', e)
  {
    NoMatchHere(s, e, ",");
  }

  /** A pass of the member loop that goes on, after the colon: a value and
      a comma; the member is stored and the loop continues. */
  lemma {:induction false} MemberValueNext(st: Settings, s: string, d: nat, acc: seq<(string, Value)>, key: string, v: Value, e: nat,
                                           ms: seq<(string, Value)>, f: nat, acc': seq<(string, Value)>)
    requires d <= e < |s| && s[e] == ','
    requires ValueReads(st, s, d, v, e)
    requires MembersRead(st, s, e + 1, acc', ms, f)
    requires acc' == Put(acc, key, v)
    ensures MemberValueRead(st, s, d, acc, key, ms, f)
  {
    MatchHere(s, e, ",");
  }

  /** A written key and a colon, then the rest of the pass: the member
      loop reads the key back. */
  lemma {:induction false} KeyRoundTrip(st: Settings, s: string, i: nat, j: nat, key: string, c: nat,
                                        acc: seq<(string, Value)>, ms: seq<(string, Value)>, f: nat)
    requires PlainString(key)
    requires Spaces(s, i, j) && StartsWith(s, j, StreamString(key))
    requires PeekIs(s, c, ':')
    requires MemberValueRead(st, s, c + 1, acc, key, ms, f)
    requires c == j + |StreamString(key)|
    ensures MembersRead(st, s, i, acc, ms, f)
  {
    StartsWithChar(s, j, StreamString(key));
    SkipWsTo(s, i, j);
    StringAt(s, i, j, key, c, st.strict);
    KeyStep(st, s, i, acc, key, c, ms, f);
  }

  /** A written value and `}` after it, following a key and its colon: the
      rest of the pass stores the value. */
  lemma {:induction false} MemberValueSingle(st: Settings, show: Number -> string, v: Value, s: string, d: nat, j: nat,
                                             acc: seq<(string, Value)>, key: string, e: nat, acc': seq<(string, Value)>)
    requires Writable(st.number, show, v)
    requires Spaces(s, d, j) && RenderedIn(show, s, j, v, e)
    requires PeekIs(s, e, '}')
    requires acc' == Put(acc, key, Back(st.number, show, v))
    ensures MemberValueRead(st, s, d, acc, key, acc', e)
    decreases v, 3
  {
    ValueRoundTrip(st, show, v, s, d, j, e);
    MemberValueLast(st, s, d, acc, key, Back(st.number, show, v), e, acc');
  }

  /** A written value, a comma, and members the loop reads after it,
      following a key and its colon: the rest of the pass stores the value
      and continues. */
  lemma {:induction false} MemberValueCons(st: Settings, show: Number -> string, v: Value, s: string, d: nat, j: nat,
                                           acc: seq<(string, Value)>, key: string, e: nat, ms: seq<(string, Value)>, f: nat,
                                           acc': seq<(string, Value)>)
    requires Writable(st.number, show, v)
    requires Spaces(s, d, j) && RenderedIn(show, s, j, v, e)
    requires PeekIs(s, e, ',')
    requires MembersRead(st, s, e + 1, acc', ms, f)
    requires acc' == Put(acc, key, Back(st.number, show, v))
    ensures MemberValueRead(st, s, d, acc, key, ms, f)
    decreases v, 3
  {
    ValueRoundTrip(st, show, v, s, d, j, e);
    MemberValueNext(st, s, d, acc, key, Back(st.number, show, v), e, ms, f, acc');
  }

  /** Entries that continue a sorted list: the first of them is stored by
      appending it. */
  lemma {:induction false} AppendFirst(acc: seq<(string, Value)>, ms: seq<(string, Value)>)
    requires |ms| > 0 && WellFormedMembers(acc + ms)
    ensures WellFormed(ms[0].1)
    ensures Put(acc, ms[0].0, ms[0].1) == acc + [ms[0]]
    ensures WellFormedMembers(acc + [ms[0]]) && (acc + [ms[0]]) + ms[1..] == acc + ms
  {
    var all := acc + ms;
    assert WellFormedMembers(acc) by {
      assert forall x :: 0 <= x < |acc| ==> acc[x] == all[x];
    }
    assert ms[0] == all[|acc|];
    assert AllBelow(acc, ms[0].0) by {
      forall x | 0 <= x < |acc| ensures Less(acc[x].0, ms[0].0) {
        assert all[x] == acc[x];
      }
    }
    PutAbove(acc, ms[0].0, ms[0].1);
    assert (acc + [ms[0]]) + ms[1..] == all;
    assert WellFormedMembers(acc + [ms[0]]) by {
      assert forall x :: 0 <= x < |acc| + 1 ==> (acc + [ms[0]])[x] == all[x];
    }
  }

  /** A written member: the quoted key, a colon and a space, and the
      value. */
  lemma {:induction false} MemberSplit(show: Number -> string, m: (string, Value), s: string, j: nat, e: nat)
    requires MemberIn(show, s, j, m, e)
    ensures var c := j + |StreamString(m.0)|;
      && StartsWith(s, j, StreamString(m.0)) && PeekIs(s, c, ':') && Spaces(s, c + 1, c + 2)
      && RenderedIn(show, s, c + 2, m.1, e)
  {
    Joined(s, j, StreamString(m.0), ": ", Render(show, m.1));
  }

  /** One written member is that member. */
  lemma {:induction false} MembersOne(show: Number -> string, ms: seq<(string, Value)>, s: string, j: nat, e: nat)
    requires |ms| == 1 && MembersIn(show, s, j, ms, e)
    ensures MemberIn(show, s, j, ms[0], e)
  {
  }

  /** Two or more written members: the first, a comma and a space, and
      the rest. */
  lemma {:induction false} MembersSplit(show: Number -> string, ms: seq<(string, Value)>, s: string, j: nat, f: nat)
    requires |ms| > 1 && MembersIn(show, s, j, ms, f)
    ensures var e := j + |RenderMember(show, ms[0])|;
      && MemberIn(show, s, j, ms[0], e) && PeekIs(s, e, ',') && Spaces(s, e + 1, e + 2)
      && MembersIn(show, s, e + 2, ms[1..], f)
  {
    var m0 := RenderMember(show, ms[0]);
    var rest := RenderMembers(show, ms[1..]);
    assert RenderMembers(show, ms) == m0 + ", " + rest;
    Joined(s, j, m0, ", ", rest);
  }

  /** A written member and `}` after it: after the key and its colon, the
      rest of the pass stores the value. */
  lemma {:induction false} MemberLast(st: Settings, show: Number -> string, m: (string, Value), s: string, j: nat, c: nat,
                                      acc: seq<(string, Value)>, e: nat, acc': seq<(string, Value)>)
    requires Writable(st.number, show, m.1)
    requires MemberIn(show, s, j, m, e) && PeekIs(s, e, '}')
    requires acc' == Put(acc, m.0, Back(st.number, show, m.1))
    requires c == j + |StreamString(m.0)|
    ensures StartsWith(s, j, StreamString(m.0)) && PeekIs(s, c, ':')
    ensures MemberValueRead(st, s, c + 1, acc, m.0, acc', e)
    decreases m, 0
  {
    MemberSplit(show, m, s, j, e);
    MemberValueSingle(st, show, m.1, s, c + 1, c + 2, acc, m.0, e, acc');
  }

  /** A written member, a comma, and members the loop reads after it:
      after the key and its colon, the rest of the pass stores the value
      and continues. */
  lemma {:induction false} MemberNext(st: Settings, show: Number -> string, m: (string, Value), s: string, j: nat, c: nat,
                                      acc: seq<(string, Value)>, ms: seq<(string, Value)>, e: nat, f: nat, acc': seq<(string, Value)>)
    requires Writable(st.number, show, m.1)
    requires MemberIn(show, s, j, m, e) && PeekIs(s, e, ',')
    requires MembersRead(st, s, e + 1, acc', ms, f)
    requires acc' == Put(acc, m.0, Back(st.number, show, m.1))
    requires c == j + |StreamString(m.0)|
    ensures StartsWith(s, j, StreamString(m.0)) && PeekIs(s, c, ':')
    ensures MemberValueRead(st, s, c + 1, acc, m.0, ms, f)
    decreases m, 0
  {
    MemberSplit(show, m, s, j, e);
    MemberValueCons(st, show, m.1, s, c + 1, c + 2, acc, m.0, e, ms, f, acc');
  }

  /** A written member and `}` after it: the member loop stores it and
      stops. */
  lemma {:induction false} MembersSingle(st: Settings, show: Number -> string, m: (string, Value), s: string, i: nat, j: nat,
                                         acc: seq<(string, Value)>, e: nat, acc': seq<(string, Value)>)
    requires PlainString(m.0) && Writable(st.number, show, m.1)
    requires Spaces(s, i, j) && MemberIn(show, s, j, m, e)
    requires PeekIs(s, e, '}')
    requires acc' == Put(acc, m.0, Back(st.number, show, m.1))
    ensures MembersRead(st, s, i, acc, acc', e)
    decreases m, 1
  {
    var c := j + |StreamString(m.0)|;
    MemberLast(st, show, m, s, j, c, acc, e, acc');
    KeyRoundTrip(st, s, i, j, m.0, c, acc, acc', e);
  }

  /** The member loop of `Object::parse` reads back written members that
      are followed by the closing brace, appending them to `acc`. */
  lemma {:induction false} MembersRoundTrip(st: Settings, show: Number -> string, ms: seq<(string, Value)>,
                                            s: string, i: nat, j: nat, f: nat, acc: seq<(string, Value)>)
    requires |ms| > 0
    requires WellFormedMembers(acc + BackMembers(st.number, show, ms))
    requires forall k :: 0 <= k < |ms| ==> PlainMember(st.number, show, ms[k])
    requires Spaces(s, i, j) && MembersIn(show, s, j, ms, f)
    requires PeekIs(s, f, '}')
    ensures MembersRead(st, s, i, acc, acc + BackMembers(st.number, show, ms), f)
    decreases ms, 2
  {
    if |ms| == 1 {
      var bm := BackMembers(st.number, show, ms);
      AppendFirst(acc, bm);
      MembersOne(show, ms, s, j, f);
      assert acc + [bm[0]] == acc + bm;
      MembersSingle(st, show, ms[0], s, i, j, acc, f, acc + bm);
    } else {
      MembersMany(st, show, ms, s, i, j, f, acc);
    }
  }


  /** Two or more written members: the first, a comma and a space, and
      the rest, which the loop stores in turn. */
  lemma {:induction false} MembersMany(st: Settings, show: Number -> string, ms: seq<(string, Value)>,
                                       s: string, i: nat, j: nat, f: nat, acc: seq<(string, Value)>)
    requires |ms| > 1
    requires WellFormedMembers(acc + BackMembers(st.number, show, ms))
    requires forall k :: 0 <= k < |ms| ==> PlainMember(st.number, show, ms[k])
    requires Spaces(s, i, j) && MembersIn(show, s, j, ms, f)
    requires PeekIs(s, f, '}')
    ensures MembersRead(st, s, i, acc, acc + BackMembers(st.number, show, ms), f)
    decreases ms, 1
  {
    var e := j + |RenderMember(show, ms[0])|;
    var bm := BackMembers(st.number, show, ms);
    AppendFirst(acc, bm);
    assert bm[1..] == BackMembers(st.number, show, ms[1..]);
    MembersSplit(show, ms, s, j, f);
    MembersTail(st.number, show, ms);
    MembersRest(st, show, ms, s, i, j, e, f, acc, acc + [bm[0]], acc + bm);
  }

  /** What holds of every member holds of the first and of the rest. */
  lemma {:induction false} MembersTail(scan: Scanner, show: Number -> string, ms: seq<(string, Value)>)
    requires |ms| > 0 && forall k :: 0 <= k < |ms| ==> PlainMember(scan, show, ms[k])
    ensures PlainMember(scan, show, ms[0])
    ensures forall k :: 0 <= k < |ms[1..]| ==> PlainMember(scan, show, ms[1..][k])
  {
    assert forall k :: 0 <= k < |ms[1..]| ==> ms[1..][k] == ms[k + 1];
  }

  /** A written member, a comma and a space, and written members up to
      `}`: the loop stores the member and then the rest. */
  lemma {:induction false} MembersRest(st: Settings, show: Number -> string, ms: seq<(string, Value)>,
                                       s: string, i: nat, j: nat, e: nat, f: nat,
                                       acc: seq<(string, Value)>, acc1: seq<(string, Value)>, all: seq<(string, Value)>)
    requires |ms| > 1 && WellFormed(Back(st.number, show, ms[0].1)) && PlainMember(st.number, show, ms[0])
    requires acc1 == Put(acc, ms[0].0, Back(st.number, show, ms[0].1))
    requires WellFormedMembers(all) && all == acc1 + BackMembers(st.number, show, ms[1..])
    requires forall k :: 0 <= k < |ms[1..]| ==> PlainMember(st.number, show, ms[1..][k])
    requires Spaces(s, i, j) && MemberIn(show, s, j, ms[0], e)
    requires PeekIs(s, e, ',') && Spaces(s, e + 1, e + 2)
    requires MembersIn(show, s, e + 2, ms[1..], f) && PeekIs(s, f, '}')
    ensures MembersRead(st, s, i, acc, all, f)
    decreases ms, 0
  {
    MembersRoundTrip(st, show, ms[1..], s, e + 1, e + 2, f, acc1);
    MemberFirst(st, show, ms[0], s, i, j, acc, all, e, f, acc1);
  }

  /** A written member and a comma, followed by a member loop that ends
      with `ms` at `f`: the loop from `i` stores the member first. */
  lemma {:induction false} MemberFirst(st: Settings, show: Number -> string, m: (string, Value), s: string, i: nat, j: nat,
                                       acc: seq<(string, Value)>, ms: seq<(string, Value)>, e: nat, f: nat, acc': seq<(string, Value)>)
    requires WellFormed(Back(st.number, show, m.1)) && PlainMember(st.number, show, m)
    requires Spaces(s, i, j) && MemberIn(show, s, j, m, e) && PeekIs(s, e, ',')
    requires MembersRead(st, s, e + 1, acc', ms, f)
    requires acc' == Put(acc, m.0, Back(st.number, show, m.1))
    ensures MembersRead(st, s, i, acc, ms, f)
    decreases m, 1
  {
    var c := j + |StreamString(m.0)|;
    MemberNext(st, show, m, s, j, c, acc, ms, e, f, acc');
    KeyRoundTrip(st, s, i, j, m.0, c, acc, ms, f);
  }


  /** Every element of a writable array is writable. */
  lemma {:induction false} ElementsWritable(scan: Scanner, show: Number -> string, vs: seq<Value>)
    requires Writable(scan, show, Arr(vs))
    ensures forall k :: 0 <= k < |vs| ==> Writable(scan, show, vs[k])
  {
    var ws := BackElements(scan, show, vs);
    forall k | 0 <= k < |vs| ensures WellFormed(Back(scan, show, vs[k])) {
      assert ws[k] == Back(scan, show, vs[k]);
    }
  }

  /** `parse(serialize(v))`: the whole rendered text parses back, in strict
      and in lenient mode, to `v` with each number replaced by the number
      read back from its printout, and all of it is consumed. */
  lemma {:induction false} RoundTrip(st: Settings, show: Number -> string, v: Value)
    requires WellFormed(v) && Readable(st.number, show, v)
    ensures ParseValue(st, Render(show, v), 0) == Ok(Back(st.number, show, v), |Render(show, v)|)
  {
    var s := Render(show, v);
    assert StartsWith(s, 0, s);
    BackWellFormed(st.number, show, v);
    ValueRoundTrip(st, show, v, s, 0, 0, |s|);
  }

  /** `parse(serialize(v)) == v` when every number in `v` reads back as
      itself. */
  lemma {:induction false} ExactRoundTrip(st: Settings, show: Number -> string, v: Value)
    requires WellFormed(v) && Readable(st.number, show, v) && Exact(st.number, show, v)
    ensures ParseValue(st, Render(show, v), 0) == Ok(v, |Render(show, v)|)
  {
    RoundTrip(st, show, v);
    BackExact(st.number, show, v);
  }

  /** A printer that writes every number as `0`. */
  function ZeroPrinter(n: Number): string {
    "0"
  }

  /** A conversion that reads a `0` at the cursor as `zero` and rejects
      anything else without consuming it. */
  function ZeroScanner(zero: Number): Scanner {
    (s: string, p: nat) => if p < |s| && s[p] == '0' then Scanned(zero, 1) else Rejected(0)
  }

  /** The round trip does not ask the printer to tell numbers apart: with
      every number printed as `0`, an array of two numbers reads back as
      two copies of the number `0` stands for. */
  lemma {:induction false} LossyRoundTrip(strict: bool, zero: Number, n: Number)
    ensures var st, v := Settings(strict, ZeroScanner(zero)), Arr([Num(n), Num(zero)]);
      && ZeroPrinter(n) == ZeroPrinter(zero)
      && ParseValue(st, Render(ZeroPrinter, v), 0) == Ok(Arr([Num(zero), Num(zero)]), |Render(ZeroPrinter, v)|)
  {
    var st, v := Settings(strict, ZeroScanner(zero)), Arr([Num(n), Num(zero)]);
    var scan := st.number;
    forall m: Number ensures ReadsBack(scan, ZeroPrinter, m) && ReadBack(scan, ZeroPrinter, m) == zero {
      assert scan(ZeroPrinter(m), 0) == Scanned(zero, 1);
      forall s: string, p: nat | StartsWith(s, p, ZeroPrinter(m)) && Delimits(s, p + 1)
        ensures scan(s, p) == Scanned(zero, 1)
      {
        assert s[p + 0] == '0';
      }
    }
    assert Readable(scan, ZeroPrinter, v);
    assert BackElements(scan, ZeroPrinter, [Num(n), Num(zero)]) == [Num(zero), Num(zero)];
    RoundTrip(st, ZeroPrinter, v);
  }
}

=== FILE: scalars.dfy ===
/** The scalar parsers: `parse_string`, `parse_number`, `parse_bool` and
    `parse_null`. The process-wide flag `settings::strict` is the explicit
    parameter `strict`. */
module Scalars {
  import opened Tokens
  import opened JsonValue

  /** A character a number can begin with in the C++ floating-point
      extraction: a sign, a digit or the decimal point. */
  predicate NumberStart(c: char) {
    c == '+' || c == '-' || c == '.' || ('0' <= c <= '9')
  }

  /** What `input >> double` does with the input from the cursor on: it
      reads a number from the first `used` characters, or it fails after
      consuming `used` characters (the characters it consumed are not put
      back). */
  datatype NumScan = Scanned(n: Number, used: nat) | Rejected(used: nat)

  /** The platform conversion, run on the input `s` at cursor `p`, stays
      inside the input, consumes at least one character when it succeeds,
      and consumes nothing when the character at the cursor cannot begin a
      number, as libstdc++'s `num_get` does. */
  ghost predicate ScansWithin(f: (string, nat) -> NumScan) {
    forall s: string, p: nat {:trigger f(s, p)} :: p <= |s| ==>
      && f(s, p).used <= |s| - p
      && (f(s, p).Scanned? ==> 0 < f(s, p).used)
      && ((p == |s| || !NumberStart(s[p])) ==> f(s, p) == Rejected(0))
  }

  /** The platform's numeric conversion, which is not part of this model. */
  type Scanner = f: (string, nat) -> NumScan | ScansWithin(f) witness (s: string, p: nat) => Rejected(0)

  /** `parse_number`: skip whitespace, run the numeric conversion, and on
      failure clear the stream's error state so that the next alternative
      can be tried from wherever the conversion stopped. */
  function ParseNumber(scan: Scanner, s: string, i: nat): (r: Parsed<Number>)
    requires i <= |s|
    ensures SkipWs(s, i) <= r.next <= |s|
  {
    var p := SkipWs(s, i);
    match scan(s, p)
    case Scanned(n, used) => Ok(n, p + used)
    case Rejected(used) => Fail(p + used)
  }

  /** A number consumes at least one character; where no number can begin,
      `parse_number` fails without consuming anything. */
  lemma {:induction false} NumberMeans(scan: Scanner, s: string, i: nat)
    requires i <= |s|
    ensures ParseNumber(scan, s, i).Ok? ==> SkipWs(s, i) < ParseNumber(scan, s, i).next
    ensures SkipWs(s, i) == |s| || !NumberStart(s[SkipWs(s, i)]) ==>
      ParseNumber(scan, s, i) == Fail(SkipWs(s, i))
  {
    assert ScansWithin(scan);
  }

  /** The character(s) an escape `\c` inside a string delimited by `delim`
      stands for. */
  function Unescape(c: char, delim: char): string {
    match c
    case '\\' => "\\"
    case '/' => "/"
    case 'b' => [Backspace]
    case 'f' => [FormFeed]
    case 'n' => "\n"
    case 'r' => "\r"
    case 't' => "\t"
    case _ => if c == delim then [c] else ['\\', c]
  }

  /** The loop of `parse_string` after the opening delimiter: decode
      characters from `j` up to the first unescaped `delim`, which it
      consumes. Reaching the end of the input first is a failure. */
  function DecodeBody(s: string, j: nat, delim: char): (r: Parsed<string>)
    requires j <= |s|
    ensures j <= r.next <= |s|
    decreases |s| - j
  {
    if j == |s| then Fail(|s|)
    else if s[j] == delim then Ok([], j + 1)
    else if s[j] == '\\' then
      if j + 1 == |s| then Fail(|s|)
      else
        match DecodeBody(s, j + 2, delim)
        case Ok(rest, k) => Ok(Unescape(s[j + 1], delim) + rest, k)
        case Fail(k) => Fail(k)
    else
      match DecodeBody(s, j + 1, delim)
      case Ok(rest, k) => Ok([s[j]] + rest, k)
      case Fail(k) => Fail(k)
  }

  /** The number of backslashes in a row just before position `k`,
      counting back no further than `j`. */
  function BackslashRun(s: string, j: nat, k: nat): (n: nat)
    requires j <= k <= |s|
    ensures n <= k - j
    decreases k
  {
    if j < k && s[k - 1] == '\\' then 1 + BackslashRun(s, j, k - 1) else 0
  }

  /** Position `k` holds an unescaped `delim` of a string body that starts
      at `j`: the delimiter, with an even number of backslashes right in
      front of it, since each backslash escapes the character after it. */
  ghost predicate OpenDelim(s: string, j: nat, k: nat, delim: char) {
    j <= k < |s| && s[k] == delim && BackslashRun(s, j, k) % 2 == 0
  }

  /** `k` is the first unescaped delimiter after `j`. */
  ghost predicate FirstOpen(s: string, j: nat, k: nat, delim: char) {
    OpenDelim(s, j, k, delim) && forall k' :: j <= k' < k ==> !OpenDelim(s, j, k', delim)
  }

  /** Behind an ordinary character the run of backslashes is the same
      whether counting stops in front of it or after it. */
  lemma {:induction false} RunPastPlain(s: string, j: nat, k: nat)
    requires j < k <= |s| && s[j] != '\\'
    ensures BackslashRun(s, j, k) == BackslashRun(s, j + 1, k)
    decreases k
  {
    if j + 1 < k && s[k - 1] == '\\' {
      RunPastPlain(s, j, k - 1);
    }
  }

  /** Behind an escape pair the run of backslashes has the same parity
      whether counting stops in front of the pair or after it. */
  lemma {:induction false} RunPastEscape(s: string, j: nat, k: nat)
    requires j + 2 <= k <= |s| && s[j] == '\\'
    ensures BackslashRun(s, j, k) % 2 == BackslashRun(s, j + 2, k) % 2
    decreases k
  {
    if j + 2 < k && s[k - 1] == '\\' {
      RunPastEscape(s, j, k - 1);
    } else if s[j + 1] == '\\' {
      assert BackslashRun(s, j, j + 1) == 1;
    }
  }

  /** The body loop succeeds exactly when an unescaped delimiter follows,
      and then stops just after the first one; otherwise it fails at the
      end of the input. */
  lemma {:induction false} DecodeBodyEnds(s: string, j: nat, delim: char)
    requires j <= |s| && delim != '\\'
    ensures var r := DecodeBody(s, j, delim);
      && (r.Ok? ==> j < r.next && FirstOpen(s, j, r.next - 1, delim))
      && (r.Fail? ==> r.next == |s| && forall k :: j <= k < |s| ==> !OpenDelim(s, j, k, delim))
    decreases |s| - j
  {
    if j == |s| || s[j] == delim {
    } else if s[j] == '\\' {
      if j + 1 < |s| {
        DecodeBodyEnds(s, j + 2, delim);
        assert BackslashRun(s, j, j + 1) == 1;
        forall k | j + 2 <= k < |s| ensures OpenDelim(s, j, k, delim) == OpenDelim(s, j + 2, k, delim) {
          RunPastEscape(s, j, k);
        }
      }
    } else {
      DecodeBodyEnds(s, j + 1, delim);
      forall k | j + 1 <= k < |s| ensures OpenDelim(s, j, k, delim) == OpenDelim(s, j + 1, k, delim) {
        RunPastPlain(s, j, k);
      }
    }
  }

  /** `parse_string`: a double-quoted string, or, when not strict, a
      single-quoted one. */
  function ParseString(s: string, i: nat, strict: bool): (r: Parsed<string>)
    requires i <= |s|
    ensures SkipWs(s, i) <= r.next <= |s|
  {
    match Match(s, i, "\"")
    case Ok(_, j) => DecodeBody(s, j, '"')
    case Fail(q) =>
      if strict then Fail(q)
      else if PeekIs(s, q, '\'') then DecodeBody(s, q + 1, '\'')
      else Fail(q)
  }

  /** Without an opening quote `parse_string` fails in place; only a double
      quote opens a string in strict mode, a single quote too otherwise; a
      string read ends with the quote that opened it. */
  lemma {:induction false} StringMeans(s: string, i: nat, strict: bool)
    requires i <= |s|
    ensures var p, r := SkipWs(s, i), ParseString(s, i, strict);
      && (r.Fail? ==> r.next == p || r.next == |s|)
      && (r.Ok? ==> (PeekIs(s, p, '"') || (!strict && PeekIs(s, p, '\''))) && p + 1 < r.next && s[r.next - 1] == s[p])
      && (strict && !PeekIs(s, p, '"') ==> r == Fail(p))
      && (!PeekIs(s, p, '"') && !PeekIs(s, p, '\'') ==> r == Fail(p))
  {
    var p := SkipWs(s, i);
    if p < |s| {
      if s[p] == '"' {
        MatchHere(s, p, "\"");
        DecodeBodyEnds(s, p + 1, '"');
      } else {
        NoMatchHere(s, p, "\"");
        if s[p] == '\'' {
          DecodeBodyEnds(s, p + 1, '\'');
        }
      }
    }
  }

  /** `parse_bool`: the exact token `true` or `false`. */
  function ParseBool(s: string, i: nat): (r: Parsed<bool>)
    requires i <= |s|
    ensures SkipWs(s, i) <= r.next <= |s|
  {
    match Match(s, i, "true")
    case Ok(_, j) => Ok(true, j)
    case Fail(q) =>
      match Match(s, q, "false")
      case Ok(_, j) => Ok(false, j)
      case Fail(q') => Fail(q')
  }

  /** `parse_bool` reads `true` or `false` right after the whitespace and
      nothing else; a failure leaves the cursor there or at the end. */
  lemma {:induction false} BoolMeans(s: string, i: nat)
    requires i <= |s|
    ensures var p, r := SkipWs(s, i), ParseBool(s, i);
      && (r.Ok? <==> StartsWith(s, p, "true") || StartsWith(s, p, "false"))
      && (r.Ok? ==> r.value == StartsWith(s, p, "true") && r.next == p + if r.value then 4 else 5)
      && (r.Fail? ==> r.next == p || r.next == |s|)
      && (!PeekIs(s, p, 't') && !PeekIs(s, p, 'f') ==> r == Fail(p))
  {
    var p := SkipWs(s, i);
    MatchMeans(s, i, "true");
    if !StartsWith(s, p, "true") {
      var q := Match(s, i, "true").next;
      assert q == p || q == |s|;
      MatchMeans(s, q, "false");
    }
    if p < |s| && s[p] != 't' && s[p] != 'f' {
      assert Agree(s, p, "true", 0) == 0 && Agree(s, p, "false", 0) == 0;
    }
  }

  /** `parse_null`: the exact token `null`; when not strict, also nothing at
      all in front of a comma (an elided element such as `[1,,2]`). */
  function ParseNull(s: string, i: nat, strict: bool): (r: Parsed<()>)
    requires i <= |s|
    ensures SkipWs(s, i) <= r.next <= |s|
  {
    match Match(s, i, "null")
    case Ok(_, j) => Ok((), j)
    case Fail(q) =>
      if strict then Fail(q)
      else if PeekIs(s, q, ',') then Ok((), q)
      else Fail(q)
  }

  /** `parse_null` reads `null` right after the whitespace, or, when not
      strict, nothing in front of a comma; a failure leaves the cursor
      there or at the end. */
  lemma {:induction false} NullMeans(s: string, i: nat, strict: bool)
    requires i <= |s|
    ensures var p, r := SkipWs(s, i), ParseNull(s, i, strict);
      && (r.Ok? <==> StartsWith(s, p, "null") || (!strict && PeekIs(s, p, ',')))
      && (r.Ok? ==> r.next == p + if StartsWith(s, p, "null") then 4 else 0)
      && (r.Fail? ==> r.next == p || r.next == |s|)
      && (!PeekIs(s, p, 'n') ==> r.Fail? ==> r.next == p)
  {
    var p := SkipWs(s, i);
    MatchMeans(s, i, "null");
    if p < |s| && s[p] != 'n' {
      assert Agree(s, p, "null", 0) == 0;
    }
  }
}

=== FILE: tokens.dfy ===
/** The character stream and the token matcher every parser is built on.

    A stream is the whole input `s` plus a cursor. A parse step reports where
    it leaves the cursor whether it succeeds or not, because jsonxx's callers
    carry on from wherever a failed attempt left the stream. When a read runs
    past the end of the input its putback calls are refused, so the stream
    is left at the end; a later `clear()` in `parse_number` resets the flags
    but not the position. The model represents this by a cursor at `|s|`:
    every later token fails there as well. */
module Tokens {

  /** The outcome of one parse step: the value read and the cursor after it,
      or a failure and the cursor where the stream was left. */
  datatype Parsed<T> = Ok(value: T, next: nat) | Fail(next: nat)

  /** The two named control characters Dafny has no escape for. */
  const Backspace: char := 8 as char
  const FormFeed: char := 12 as char

  /** The characters `std::ws` skips in the classic locale: space, tab,
      newline, vertical tab, form feed and carriage return. */
  predicate IsSpace(c: char) {
    c == ' ' || ('\t' <= c <= '\r')
  }

  /** `input >> std::ws`: the first position at or after `i` that does not
      hold whitespace. */
  function SkipWs(s: string, i: nat): (j: nat)
    requires i <= |s|
    ensures i <= j <= |s|
    ensures j < |s| ==> !IsSpace(s[j])
    decreases |s| - i
  {
    if i < |s| && IsSpace(s[i]) then SkipWs(s, i + 1) else i
  }

  /** Everything `SkipWs` passes over is whitespace. */
  lemma {:induction false} SkippedAreSpaces(s: string, i: nat)
    requires i <= |s|
    ensures forall k :: i <= k < SkipWs(s, i) ==> IsSpace(s[k])
    decreases |s| - i
  {
    if i < |s| && IsSpace(s[i]) {
      SkippedAreSpaces(s, i + 1);
    }
  }

  /** Whitespace up to `j`, then something else: `j` is where skipping stops. */
  lemma {:induction false} SkipWsTo(s: string, i: nat, j: nat)
    requires i <= j <= |s|
    requires forall k :: i <= k < j ==> IsSpace(s[k])
    requires j == |s| || !IsSpace(s[j])
    ensures SkipWs(s, i) == j
    decreases j - i
  {
    if i < j {
      SkipWsTo(s, i + 1, j);
    }
  }

  /** The input holds `pat` at position `p`. */
  predicate StartsWith(s: string, p: nat, pat: string) {
    p + |pat| <= |s| && forall k :: 0 <= k < |pat| ==> s[p + k] == pat[k]
  }

  /** `input.peek() == c`; at the end of the input `peek` yields EOF. */
  predicate PeekIs(s: string, q: nat, c: char) {
    q < |s| && s[q] == c
  }

  /** The input from `p` on is a proper prefix of `pat`: reading the pattern
      runs off the end of the input. */
  predicate RunsOut(s: string, p: nat, pat: string) {
    p <= |s| && |s| - p < |pat| && forall k :: 0 <= k < |s| - p ==> s[p + k] == pat[k]
  }

  /** Reading `pat` against the input from `p`, having matched its first `k`
      characters: the number of leading characters that match before a
      mismatch or the end of the input. */
  function Agree(s: string, p: nat, pat: string, k: nat): (a: nat)
    requires p + k <= |s| && k <= |pat|
    ensures k <= a <= |pat| && p + a <= |s|
    decreases |pat| - k
  {
    if k == |pat| || p + k == |s| || s[p + k] != pat[k] then k
    else Agree(s, p, pat, k + 1)
  }

  /** `match(pattern, input)`: skip whitespace, then consume exactly `pat`.
      A mismatch on a character that is present puts every consumed
      character back, leaving the cursor just after the skipped whitespace
      (the whitespace itself stays consumed). Running off the end of the
      input fails the stream, which refuses the putbacks. */
  function Match(s: string, i: nat, pat: string): (r: Parsed<()>)
    requires i <= |s|
    ensures SkipWs(s, i) <= r.next <= |s|
    ensures r.Ok? ==> r.next == SkipWs(s, i) + |pat|
  {
    var p := SkipWs(s, i);
    var a := Agree(s, p, pat, 0);
    if a == |pat| then Ok((), p + |pat|)
    else if p + a == |s| then Fail(|s|)
    else Fail(p)
  }

  /** What `Agree` counts: from `k` on, the characters it passes match, and
      it stops at the pattern's end, the input's end or a mismatch. */
  lemma {:induction false} AgreeMeans(s: string, p: nat, pat: string, k: nat)
    requires p + k <= |s| && k <= |pat|
    requires forall m :: 0 <= m < k ==> s[p + m] == pat[m]
    ensures var a := Agree(s, p, pat, k);
      && (forall m :: 0 <= m < a ==> s[p + m] == pat[m])
      && (a < |pat| ==> p + a == |s| || s[p + a] != pat[a])
    decreases |pat| - k
  {
    if !(k == |pat| || p + k == |s| || s[p + k] != pat[k]) {
      AgreeMeans(s, p, pat, k + 1);
    }
  }

  /** `Match` succeeds exactly when the pattern follows the whitespace, and
      a failure that moves the cursor is one where the input ran out inside
      the pattern. */
  lemma {:induction false} MatchMeans(s: string, i: nat, pat: string)
    requires i <= |s|
    ensures Match(s, i, pat).Ok? <==> StartsWith(s, SkipWs(s, i), pat)
    ensures Match(s, i, pat).Fail? && Match(s, i, pat).next != SkipWs(s, i) ==>
      Match(s, i, pat).next == |s| && RunsOut(s, SkipWs(s, i), pat)
  {
    AgreeMeans(s, SkipWs(s, i), pat, 0);
  }

  /** A one-character token right at `j` is matched there. */
  lemma {:induction false} MatchHere(s: string, j: nat, pat: string)
    requires |pat| == 1 && j < |s| && s[j] == pat[0] && !IsSpace(pat[0])
    ensures SkipWs(s, j) == j
    ensures Match(s, j, pat) == Ok((), j + 1)
  {
  }

  /** A character other than the one-character token at `j` makes the
      match fail there, consuming nothing. */
  lemma {:induction false} NoMatchHere(s: string, j: nat, pat: string)
    requires |pat| == 1 && j < |s| && s[j] != pat[0] && !IsSpace(s[j])
    ensures SkipWs(s, j) == j
    ensures Match(s, j, pat) == Fail(j)
  {
  }

  /** A matched one-character token is the character right after the
      skipped whitespace, just before the cursor. */
  lemma {:induction false} MatchedChar(s: string, i: nat, pat: string)
    requires i <= |s| && |pat| == 1 && Match(s, i, pat).Ok?
    ensures Match(s, i, pat).next == SkipWs(s, i) + 1
    ensures s[SkipWs(s, i)] == pat[0]
  {
    MatchMeans(s, i, pat);
    assert s[SkipWs(s, i) + 0] == pat[0];
  }

  /** The input ends one character short of `pat`, all of which matched,
      and `pat` ends with a doubled character: the case in which the
      source's loop reports a match although the last character is missing. */
  predicate StaleMatch(s: string, p: nat, pat: string)
    requires p <= |s|
  {
    && |pat| >= 2
    && |s| - p == |pat| - 1
    && Agree(s, p, pat, 0) == |pat| - 1
    && pat[|pat| - 2] == pat[|pat| - 1]
  }

  /** The loop of `match` as written. When `input.get(ch)` fails at the end
      of the input it leaves `ch` holding the previous character, and the
      loop still compares that stale `ch` with the pattern; if they agree
      the pattern index advances and the loop ends with the whole pattern
      "matched". Apart from that case the loop computes `Match`. */
  method MatchLoop(s: string, i: nat, pat: string) returns (ok: bool, next: nat)
    requires i <= |s|
    ensures StaleMatch(s, SkipWs(s, i), pat) ==> ok && next == |s|
    ensures !StaleMatch(s, SkipWs(s, i), pat) ==>
      ok == Match(s, i, pat).Ok? && next == Match(s, i, pat).next
  {
    var p := SkipWs(s, i);
    if p == |s| {
      // std::ws reached the end and set eofbit: the loop does not run
      return |pat| == 0, |s|;
    }
    var cur := 0;
    var pos := p;
    var ch := '\0';
    var good := true;
    while good && cur < |pat|
      invariant p <= pos <= |s| && cur <= |pat|
      invariant good ==> pos == p + cur && Agree(s, p, pat, 0) == Agree(s, p, pat, cur)
      invariant !good ==> && pos == |s| && cur == |s| - p + 1 && cur >= 2
                          && Agree(s, p, pat, 0) == cur - 1 && pat[cur - 2] == pat[cur - 1]
      invariant cur > 0 ==> ch == pat[cur - 1]
      decreases |pat| - cur
    {
      if pos == |s| {
        // get fails: failbit and eofbit are set, ch keeps its old value
        good := false;
      } else {
        ch := s[pos];
        pos := pos + 1;
      }
      if ch != pat[cur] {
        if good {
          // putback(ch), then put back the matched prefix
          pos := pos - 1 - cur;
        }
        return false, pos;
      }
      cur := cur + 1;
    }
    return cur == |pat|, pos;
  }

  /** The discrepancy: on the three-character input `nul` the source's loop
      accepts the token `null`, while the intended match fails. */
  lemma {:induction false} NulTakenForNull()
    ensures StaleMatch("nul", SkipWs("nul", 0), "null")
    ensures Match("nul", 0, "null") == Fail(3)
  {
    assert SkipWs("nul", 0) == 0;
    assert Agree("nul", 0, "null", 0) == 3;
  }
}

=== FILE: values.dfy ===
/** The tree a JSON document parses into: jsonxx's Value, Array and Object.

    An Array is an ordered sequence of values. An Object is the contents of
    the std::map behind `kv_map()`: a list of (key, value) members kept
    strictly ascending by key, so that iterating it visits the keys in the
    order std::map does. */
module JsonValue {

  /** A double as the platform's numeric stream conversion produces it; its
      representation is not part of this model. */
  type Number(==, !new)

  datatype Value =
    | Null
    | Bool(b: bool)
    | Num(n: Number)
    | Str(s: string)
    | Arr(elems: seq<Value>)
    | Obj(members: seq<(string, Value)>)

  /** Strict lexicographic order on strings, as std::string compares them
      (character by character, a proper prefix first). */
  predicate Less(a: string, b: string)
    decreases |a|
  {
    if |b| == 0 then false
    else if |a| == 0 then true
    else if a[0] != b[0] then a[0] < b[0]
    else Less(a[1..], b[1..])
  }

  lemma {:induction false} LessIrreflexive(a: string)
    ensures !Less(a, a)
    decreases |a|
  {
    if |a| > 0 {
      LessIrreflexive(a[1..]);
    }
  }

  lemma {:induction false} LessTransitive(a: string, b: string, c: string)
    requires Less(a, b) && Less(b, c)
    ensures Less(a, c)
    decreases |a|
  {
    if |a| > 0 && a[0] == b[0] && b[0] == c[0] {
      LessTransitive(a[1..], b[1..], c[1..]);
    }
  }

  /** Any two distinct strings are ordered one way or the other. */
  lemma {:induction false} LessTotal(a: string, b: string)
    requires a != b
    ensures Less(a, b) || Less(b, a)
    decreases |a|
  {
    if |a| > 0 && |b| > 0 && a[0] == b[0] {
      assert a == [a[0]] + a[1..] && b == [b[0]] + b[1..];
      LessTotal(a[1..], b[1..]);
    }
  }

  lemma {:induction false} LessAsymmetric(a: string, b: string)
    requires Less(a, b)
    ensures !Less(b, a)
  {
    if Less(b, a) {
      LessTransitive(a, b, a);
      LessIrreflexive(a);
    }
  }

  /** The representation invariant of an Object: keys strictly ascending. */
  ghost predicate SortedKeys(m: seq<(string, Value)>) {
    forall i, j :: 0 <= i < j < |m| ==> Less(m[i].0, m[j].0)
  }

  /** The value stored under `k`, as `std::map::find` would report it. */
  function Lookup(m: seq<(string, Value)>, k: string): Option<Value> {
    if |m| == 0 then None
    else if m[0].0 == k then Some(m[0].1)
    else Lookup(m[1..], k)
  }

  datatype Option<T> = None | Some(value: T)

  /** `object.value_map_[key] = v`: overwrite the value stored under `k`, or
      insert `k` in front of the first greater key (the last write wins). */
  function Put(m: seq<(string, Value)>, k: string, v: Value): seq<(string, Value)>
    decreases |m|
  {
    if |m| == 0 then [(k, v)]
    else if m[0].0 == k then [(k, v)] + m[1..]
    else if Less(k, m[0].0) then [(k, v)] + m
    else [m[0]] + Put(m[1..], k, v)
  }

  /** After `Put(m, k, v)` the key `k` finds `v` and every other key finds
      what it found before. */
  lemma {:induction false} PutLookup(m: seq<(string, Value)>, k: string, v: Value, k': string)
    ensures Lookup(Put(m, k, v), k') == if k' == k then Some(v) else Lookup(m, k')
    decreases |m|
  {
    if |m| > 0 && m[0].0 != k && !Less(k, m[0].0) {
      PutLookup(m[1..], k, v, k');
      assert Put(m, k, v)[1..] == Put(m[1..], k, v);
    } else if |m| > 0 && m[0].0 == k {
      assert Put(m, k, v)[1..] == m[1..];
    } else if |m| > 0 {
      assert Put(m, k, v)[1..] == m;
    }
  }

  /** Every entry `Put` leaves is the new one or an entry that was there. */
  lemma {:induction false} PutFrom(m: seq<(string, Value)>, k: string, v: Value)
    ensures forall j :: 0 <= j < |Put(m, k, v)| ==> Put(m, k, v)[j] == (k, v) || Put(m, k, v)[j] in m
    decreases |m|
  {
    if |m| > 0 && m[0].0 != k && !Less(k, m[0].0) {
      PutFrom(m[1..], k, v);
      var r := Put(m, k, v);
      forall j | 0 <= j < |r| ensures r[j] == (k, v) || r[j] in m {
        if j > 0 {
          assert r[j] == Put(m[1..], k, v)[j - 1];
          if r[j] != (k, v) {
            var i :| 0 <= i < |m[1..]| && m[1..][i] == r[j];
            assert m[i + 1] == r[j];
          }
        }
      }
    } else if |m| > 0 && m[0].0 == k {
      var r := Put(m, k, v);
      forall j | 0 < j < |r| ensures r[j] in m {
        assert r[j] == m[j];
      }
    }
  }

  /** `Put` keeps the keys strictly ascending. */
  lemma {:induction false} PutSorted(m: seq<(string, Value)>, k: string, v: Value)
    requires SortedKeys(m)
    ensures SortedKeys(Put(m, k, v))
    decreases |m|
  {
    if |m| == 0 {
    } else if m[0].0 == k {
    } else if Less(k, m[0].0) {
      forall j | 0 < j < |m| ensures Less(k, m[j].0) {
        LessTransitive(k, m[0].0, m[j].0);
      }
    } else {
      LessTotal(k, m[0].0);
      PutSorted(m[1..], k, v);
      PutFrom(m[1..], k, v);
      var tail := Put(m[1..], k, v);
      forall j | 0 <= j < |tail| ensures Less(m[0].0, tail[j].0) {
        if tail[j] != (k, v) {
          var i :| 0 <= i < |m[1..]| && m[1..][i] == tail[j];
          assert m[i + 1] == tail[j];
        }
      }
    }
  }

  /** Every key of a sorted member list is below `k`. */
  ghost predicate AllBelow(m: seq<(string, Value)>, k: string) {
    forall i :: 0 <= i < |m| ==> Less(m[i].0, k)
  }

  /** Storing a key above every present key appends it: parsing members that
      arrive in ascending order rebuilds them unchanged. */
  lemma {:induction false} PutAbove(m: seq<(string, Value)>, k: string, v: Value)
    requires SortedKeys(m) && AllBelow(m, k)
    ensures Put(m, k, v) == m + [(k, v)]
    decreases |m|
  {
    if |m| > 0 {
      LessAsymmetric(m[0].0, k);
      LessIrreflexive(k);
      PutAbove(m[1..], k, v);
      assert m == [m[0]] + m[1..];
    }
  }

  /** Objects anywhere in the tree keep their keys sorted. */
  ghost predicate WellFormed(v: Value)
    decreases v
  {
    match v
    case Arr(vs) => forall i :: 0 <= i < |vs| ==> WellFormed(vs[i])
    case Obj(ms) => SortedKeys(ms) && forall i :: 0 <= i < |ms| ==> WellFormed(ms[i].1)
    case _ => true
  }

  /** The members of a well-formed object. */
  ghost predicate WellFormedMembers(ms: seq<(string, Value)>) {
    WellFormed(Obj(ms))
  }

  /** Storing a well-formed value into a well-formed object keeps it
      well-formed. */
  lemma {:induction false} PutWellFormed(m: seq<(string, Value)>, k: string, v: Value)
    requires WellFormedMembers(m) && WellFormed(v)
    ensures WellFormedMembers(Put(m, k, v))
  {
    PutSorted(m, k, v);
    PutFrom(m, k, v);
    var r := Put(m, k, v);
    forall j | 0 <= j < |r| ensures WellFormed(r[j].1) {
      if r[j] != (k, v) {
        var i :| 0 <= i < |m| && m[i] == r[j];
      }
    }
  }
}

=== FILE: writer.dfy ===
/** The canonical JSON serialiser: `stream_string` and the `operator<<`
    overloads for Value, Array and Object. Numbers are printed by the
    platform (`ostream << double`), passed in as `show`. */
module JsonWriter {
  import opened Tokens
  import opened JsonValue

  function Pow16(k: nat): (r: nat)
    ensures r > 0
  {
    if k == 0 then 1 else 16 * Pow16(k - 1)
  }

  function HexDigit(d: nat): (c: char)
    requires d < 16
  {
    if d < 10 then ('0' as int + d) as char else ('a' as int + d - 10) as char
  }

  /** The value of a lower-case hexadecimal digit. */
  function DigitValue(c: char): nat {
    if '0' <= c <= '9' then c as int - '0' as int
    else if 'a' <= c <= 'f' then c as int - 'a' as int + 10
    else 0
  }

  /** The number a string of lower-case hexadecimal digits denotes. */
  function HexValue(t: string): nat {
    if |t| == 0 then 0 else 16 * HexValue(t[..|t| - 1]) + DigitValue(t[|t| - 1])
  }

  /** `std::hex << std::setw(width) << std::setfill('0') << n`: exactly
      `width` lower-case digits, zero-padded, that denote `n`. */
  function HexDigits(n: nat, width: nat): (r: string)
    requires n < Pow16(width)
    ensures |r| == width
    ensures forall k :: 0 <= k < |r| ==> '0' <= r[k] <= '9' || 'a' <= r[k] <= 'f'
    ensures HexValue(r) == n
  {
    if width == 0 then []
    else
      var r := HexDigits(n / 16, width - 1) + [HexDigit(n % 16)];
      assert r[..|r| - 1] == HexDigits(n / 16, width - 1);
      r
  }

  /** How `stream_string` writes one character: the two-character escapes
      for `"`, `\`, `/` and the five named controls, `\u` and six hex digits
      for any other character below 32, and the character itself otherwise. */
  function EscapeChar(c: char): (r: string)
    ensures |r| >= 1
    ensures r == [c] <==> c as int >= 32 && c != '"' && c != '\\' && c != '/'
    ensures r != [c] ==> r[0] == '\\' && |r| >= 2
    ensures c as int < 32 && c != '\n' && c != '\r' && c != '\t' && c != Backspace && c != FormFeed ==>
      && |r| == 8 && r[..2] == "\\u" && HexValue(r[2..]) == c as int
      && forall k :: 2 <= k < 8 ==> '0' <= r[k] <= '9' || 'a' <= r[k] <= 'f'
  {
    match c
    case '"' => "\\\""
    case '\\' => "\\\\"
    case '/' => "\\/"
    case '\n' => "\\n"
    case '\r' => "\\r"
    case '\t' => "\\t"
    case _ =>
      if c == Backspace then "\\b"
      else if c == FormFeed then "\\f"
      else if c as int < 32 then
        var r := "\\u" + HexDigits(c as nat, 6);
        assert r[2..] == HexDigits(c as nat, 6);
        r
      else [c]
  }

  /** The escaped body of a string: each character escaped in turn, so
      that no control character is left in it. */
  function Escaped(str: string): (r: string)
    ensures |r| >= |str|
    ensures forall k :: 0 <= k < |r| ==> r[k] as int >= 32
  {
    if |str| == 0 then [] else EscapeChar(str[0]) + Escaped(str[1..])
  }

  /** `stream_string`: the escaped characters between double quotes. */
  function StreamString(str: string): (r: string)
    ensures |r| >= 2 && r[0] == '"' && r[|r| - 1] == '"'
  {
    "\"" + Escaped(str) + "\""
  }

  /** `operator<<` for a Value. An Array is its elements joined by `", "`
      inside brackets; an Object is its `"key": value` members, in key
      order, joined by `", "` inside braces. */
  function Render(show: Number -> string, v: Value): string
    decreases v
  {
    match v
    case Null => "null"
    case Bool(b) => if b then "true" else "false"
    case Num(n) => show(n)
    case Str(str) => StreamString(str)
    case Arr(vs) => "[" + RenderElements(show, vs) + "]"
    case Obj(ms) => "{" + RenderMembers(show, ms) + "}"
  }

  function RenderElements(show: Number -> string, vs: seq<Value>): string
    decreases vs
  {
    if |vs| == 0 then ""
    else if |vs| == 1 then Render(show, vs[0])
    else Render(show, vs[0]) + ", " + RenderElements(show, vs[1..])
  }

  function RenderMember(show: Number -> string, m: (string, Value)): string
    decreases m
  {
    StreamString(m.0) + ": " + Render(show, m.1)
  }

  function RenderMembers(show: Number -> string, ms: seq<(string, Value)>): string
    decreases ms
  {
    if |ms| == 0 then ""
    else if |ms| == 1 then RenderMember(show, ms[0])
    else RenderMember(show, ms[0]) + ", " + RenderMembers(show, ms[1..])
  }
}

=== FILE: xml.dfy ===
/** The XML serialiser: `Object::xml` and `Array::xml` in the two XML
    dialects jsonxx writes, JSONx (`json:object`, `json:string`, ... with
    `name` attributes) and JXML (every element is `j`, its type and name in
    the `son` attribute). */
module Xml {
  import opened JsonValue

  /** `format::jsonx` and `format::jxml`. */
  datatype Format = JsonX | JXml

  /** The type character `tag` passes to `open_tag` and `close_tag` for
      each kind of value. */
  function KindChar(v: Value): (c: char)
    ensures c in {'0', 'b', 'a', 's', 'o', 'n'}
  {
    match v
    case Null => '0'
    case Bool(_) => 'b'
    case Arr(_) => 'a'
    case Str(_) => 's'
    case Obj(_) => 'o'
    case Num(_) => 'n'
  }

  /** `escape_string`: a double or single quote gets a backslash in front;
      every other character is copied. No quote of the result is left
      without a backslash in front of it. */
  function EscapeString(t: string): (r: string)
    ensures |r| >= |t|
    ensures forall k :: 0 <= k < |r| && (r[k] == '"' || r[k] == '\'') ==> 0 < k && r[k - 1] == '\\'
  {
    if |t| == 0 then ""
    else
      (if t[0] == '"' then "\\\"" else if t[0] == '\'' then "\\'" else [t[0]])
      + EscapeString(t[1..])
  }

  /** `escape_tag`: `<` and `>` become `&lt;` and `&gt;`; every other
      character, `&` included, is copied. No angle bracket is left. */
  function EscapeTag(t: string): (r: string)
    ensures |r| >= |t|
    ensures Free(r, '<') && Free(r, '>')
  {
    if |t| == 0 then ""
    else
      (if t[0] == '<' then "&lt;" else if t[0] == '>' then "&gt;" else [t[0]])
      + EscapeTag(t[1..])
  }

  /** Reading the entities `&lt;` and `&gt;` back, as an XML reader does
      for those two. */
  function UnescapeTag(r: string): string
    decreases |r|
  {
    if |r| == 0 then ""
    else if |r| >= 4 && r[..4] == "&lt;" then "<" + UnescapeTag(r[4..])
    else if |r| >= 4 && r[..4] == "&gt;" then ">" + UnescapeTag(r[4..])
    else [r[0]] + UnescapeTag(r[1..])
  }

  /** Reading the backslash escapes `escape_string` writes back. */
  function UnescapeString(r: string): string
    decreases |r|
  {
    if |r| == 0 then ""
    else if |r| >= 2 && r[0] == '\\' && (r[1] == '"' || r[1] == '\'') then [r[1]] + UnescapeString(r[2..])
    else [r[0]] + UnescapeString(r[1..])
  }

  predicate Free(t: string, c: char) {
    forall k :: 0 <= k < |t| ==> t[k] != c
  }

  /** The JSONx element name of each type character; anything else is
      treated as null. */
  function TypeName(c: char): string {
    match c
    case 'b' => "boolean"
    case 'a' => "array"
    case 's' => "string"
    case 'o' => "object"
    case 'n' => "number"
    case _ => "null"
  }

  /** The element name an opening and a closing tag of type `c` carry. */
  function ElementName(f: Format, c: char): string {
    match f
    case JXml => "j"
    case JsonX => "json:" + TypeName(c)
  }

  /** What `open_tag` puts between `<` and the attributes: the element name
      with the type and the escaped name. JXML writes `j son="c"` or
      `j son="c:name"`; JSONx writes `json:<type>`, followed by
      ` name="name"` when there is a name. */
  function TagName(f: Format, c: char, name: string): string {
    match f
    case JXml =>
      if name == "" then "j son=\"" + [c] + "\""
      else "j son=\"" + [c] + ":" + EscapeString(name) + "\""
    case JsonX =>
      var named := NameAttr(name);
      match c
      case 'b' => "json:boolean" + named
      case 'a' => "json:array" + named
      case 's' => "json:string" + named
      case 'o' => "json:object" + named
      case 'n' => "json:number" + named
      case _ => "json:null" + named
  }

  /** `open_tag`. */
  function OpenTag(f: Format, c: char, name: string, attr: string): (r: string)
    ensures |r| >= 2 && r[0] == '<' && r[|r| - 1] == '>'
  {
    "<" + TagName(f, c, name) + attr + ">"
  }

  /** `close_tag`: `</j>` in JXML, `</json:<type>>` in JSONx. */
  function CloseTag(f: Format, c: char): string {
    match f
    case JXml => "</j>"
    case JsonX =>
      match c
      case 'b' => "</json:boolean>"
      case 'a' => "</json:array>"
      case 'o' => "</json:object>"
      case 's' => "</json:string>"
      case 'n' => "</json:number>"
      case _ => "</json:null>"
  }

  /** `std::string(depth, '\t')`. */
  function Tabs(d: nat): (r: string)
    ensures |r| == d && forall k :: 0 <= k < d ==> r[k] == '\t'
  {
    seq(d, _ => '\t')
  }

  /** `tag`: one element per value, on lines indented by `depth` tabs. A
      null is one self-closing tag; a boolean, string or number is one line
      holding its text; an array or object has its opening tag (carrying
      `attr`) on a line of its own, then its children one tab deeper
      (array elements without a name, object members named by their keys,
      in key order), then its closing tag. Numbers are printed by `show`. */
  function Tag(f: Format, show: Number -> string, depth: nat, name: string, v: Value, attr: string): string
    decreases v
  {
    var tab := Tabs(depth);
    match v
    case Null => tab + OpenTag(f, '0', name, " /") + "\n"
    case Bool(b) => Leaf(f, 'b', tab, name, if b then "true" else "false")
    case Arr(vs) => Block(f, 'a', tab, name, attr, TagElements(f, show, depth + 1, vs))
    case Str(str) => Leaf(f, 's', tab, name, EscapeTag(str))
    case Obj(ms) => Block(f, 'o', tab, name, attr, TagMembers(f, show, depth + 1, ms))
    case Num(n) => Leaf(f, 'n', tab, name, show(n))
  }

  /** The line of a boolean, string or number: the opening tag (with no
      attributes), the text, the closing tag. */
  function Leaf(f: Format, c: char, tab: string, name: string, text: string): string {
    tab + OpenTag(f, c, name, "") + text + CloseTag(f, c) + "\n"
  }

  /** The lines of an array or object: the opening tag, the children's
      lines, the closing tag. */
  function Block(f: Format, c: char, tab: string, name: string, attr: string, children: string): string {
    tab + OpenTag(f, c, name, attr) + "\n" + children + tab + CloseTag(f, c) + "\n"
  }

  function TagElements(f: Format, show: Number -> string, depth: nat, vs: seq<Value>): string
    decreases vs
  {
    if |vs| == 0 then "" else Tag(f, show, depth, "", vs[0], "") + TagElements(f, show, depth, vs[1..])
  }

  function TagMembers(f: Format, show: Number -> string, depth: nat, ms: seq<(string, Value)>): string
    decreases ms
  {
    if |ms| == 0 then "" else TagMember(f, show, depth, ms[0]) + TagMembers(f, show, depth, ms[1..])
  }

  function TagMember(f: Format, show: Number -> string, depth: nat, m: (string, Value)): string
    decreases m
  {
    Tag(f, show, depth, m.0, m.1, "")
  }

  /** `defheader`: the XML declaration followed by `JSONXX_XML_TAG`, a
      build-time constant of jsonxx.h passed in here as `xmlTag`; the same
      for both formats. */
  function DefaultHeader(xmlTag: string): string {
    "<?xml version=\"1.0\" encoding=\"UTF-8\"?>" + xmlTag + "\n"
  }

  /** `defrootattrib`: the JSONx schema and namespace declarations; none
      for JXML. */
  function DefaultRootAttr(f: Format): string {
    match f
    case JsonX =>
      " xsi:schemaLocation=\"http://www.datapower.com/schemas/json jsonx.xsd\""
      + " xmlns:xsi=\"http://www.w3.org/2001/XMLSchema-instance\""
      + " xmlns:json=\"http://www.ibm.com/xmlns/prod/2009/jsonx\""
    case JXml => ""
  }

  /** The header and root attributes `xml` uses: the given ones, or the
      defaults when they are empty. */
  function ChosenHeader(xmlTag: string, header: string): string {
    if header == "" then DefaultHeader(xmlTag) else header
  }

  function ChosenAttr(f: Format, attrib: string): string {
    if attrib == "" then DefaultRootAttr(f) else attrib
  }

  /** `Object::xml`: the header, then the object as an unnamed element at
      depth 0 carrying the root attributes. */
  function ObjectXml(f: Format, show: Number -> string, xmlTag: string, header: string, attrib: string,
                     ms: seq<(string, Value)>): string
  {
    ChosenHeader(xmlTag, header) + Tag(f, show, 0, "", Obj(ms), ChosenAttr(f, attrib))
  }

  /** `Array::xml`, likewise for an array. */
  function ArrayXml(f: Format, show: Number -> string, xmlTag: string, header: string, attrib: string,
                    vs: seq<Value>): string
  {
    ChosenHeader(xmlTag, header) + Tag(f, show, 0, "", Arr(vs), ChosenAttr(f, attrib))
  }

  // ----- Escaping -----

  /** No character of `EscapeString`'s output is a quote unless a backslash
      stands right before it; in particular the output never starts with
      one. */
  lemma {:induction false} EscapeStringStart(t: string)
    ensures |EscapeString(t)| > 0 ==> EscapeString(t)[0] != '"' && EscapeString(t)[0] != '\''
  {
  }

  /** `escape_string` can be undone: reading its backslash escapes back
      gives the original text, whatever it contains (backslashes included),
      so two different names never get the same escaped form. */
  lemma {:induction false} EscapeStringRoundTrip(t: string)
    ensures UnescapeString(EscapeString(t)) == t
    decreases |t|
  {
    if |t| > 0 {
      var rest := EscapeString(t[1..]);
      EscapeStringRoundTrip(t[1..]);
      if t[0] == '"' || t[0] == '\'' {
        var r := ['\\', t[0]] + rest;
        assert EscapeString(t) == r;
        assert r[2..] == rest;
      } else {
        var r := [t[0]] + rest;
        assert EscapeString(t) == r;
        if t[0] == '\\' && |rest| > 0 {
          EscapeStringStart(t[1..]);
          assert r[1] == rest[0];
        }
        assert r[1..] == rest;
      }
    }
  }

  /** `escape_string` changes a text exactly when it holds a quote. */
  lemma {:induction false} EscapeStringUnchanged(t: string)
    ensures EscapeString(t) == t <==> Free(t, '"') && Free(t, '\'')
    decreases |t|
  {
    if |t| > 0 {
      EscapeStringUnchanged(t[1..]);
      var rest := EscapeString(t[1..]);
      if t[0] == '"' || t[0] == '\'' {
        assert EscapeString(t) == ['\\', t[0]] + rest;
        assert EscapeString(t)[0] != t[0];
      } else {
        assert EscapeString(t) == [t[0]] + rest;
        if EscapeString(t) == t {
          assert rest == EscapeString(t)[1..];
        }
        assert t == [t[0]] + t[1..];
      }
    }
  }

  /** `escape_tag` changes a text exactly when it holds `<` or `>`. */
  lemma {:induction false} EscapeTagUnchanged(t: string)
    ensures EscapeTag(t) == t <==> Free(t, '<') && Free(t, '>')
    decreases |t|
  {
    if |t| > 0 {
      EscapeTagUnchanged(t[1..]);
      var rest := EscapeTag(t[1..]);
      if t[0] == '<' || t[0] == '>' {
        assert EscapeTag(t)[0] == '&';
      } else {
        assert EscapeTag(t) == [t[0]] + rest;
        if EscapeTag(t) == t {
          assert rest == EscapeTag(t)[1..];
        }
        assert t == [t[0]] + t[1..];
      }
    }
  }

  /** Text without `&` comes back from `escape_tag`'s output when the two
      entities are read back. */
  lemma {:induction false} EscapeTagRoundTrip(t: string)
    requires Free(t, '&')
    ensures UnescapeTag(EscapeTag(t)) == t
    decreases |t|
  {
    if |t| > 0 {
      var rest := EscapeTag(t[1..]);
      EscapeTagRoundTrip(t[1..]);
      if t[0] == '<' || t[0] == '>' {
        var e := if t[0] == '<' then "&lt;" else "&gt;";
        var r := e + rest;
        assert EscapeTag(t) == r;
        assert r[..4] == e && r[4..] == rest;
      } else {
        var r := [t[0]] + rest;
        assert EscapeTag(t) == r;
        assert r[1..] == rest;
      }
    }
  }

  /** Without the `&` condition the round trip cannot hold: `&` is not
      escaped, so the text `&lt;` and the text `<` are written the same. */
  lemma AmpersandCollides()
    ensures EscapeTag("&lt;") == EscapeTag("<") == "&lt;"
  {
    assert EscapeTag("<") == "&lt;" + EscapeTag("");
    assert EscapeTag(";") == ";" + EscapeTag("");
    assert EscapeTag("t;") == "t" + EscapeTag(";");
    assert EscapeTag("lt;") == "l" + EscapeTag("t;");
    assert EscapeTag("&lt;") == "&" + EscapeTag("lt;");
  }

  // ----- Tags -----

  /** The name attribute JSONx adds after the element name. */
  function NameAttr(name: string): string {
    if name == "" then "" else " name=\"" + EscapeString(name) + "\""
  }

  lemma {:induction false} JsonXTagName(c: char, name: string)
    ensures TagName(JsonX, c, name) == ElementName(JsonX, c) + NameAttr(name)
  {
    match c
    case 'b' => assert "json:boolean" == "json:" + "boolean";
    case 'a' => assert "json:array" == "json:" + "array";
    case 's' => assert "json:string" == "json:" + "string";
    case 'o' => assert "json:object" == "json:" + "object";
    case 'n' => assert "json:number" == "json:" + "number";
    case _ => assert "json:null" == "json:" + "null";
  }

  /** The tag name begins with the element name, and whatever follows it
      (the `son` or `name` attribute) begins with a space. */
  lemma {:induction false} TagNameStart(f: Format, c: char, name: string)
    ensures var t := TagName(f, c, name); var e := ElementName(f, c);
      && |e| <= |t| && t[..|e|] == e && (|t| == |e| || t[|e|] == ' ')
  {
    var t := TagName(f, c, name);
    var e := ElementName(f, c);
    if f.JXml? {
      assert t[..1] == "j";
    } else {
      JsonXTagName(c, name);
      assert t[..|e|] == e;
    }
  }

  /** The closing tag names the element `ElementName` describes. */
  lemma {:induction false} CloseTagName(f: Format, c: char)
    ensures CloseTag(f, c) == "</" + ElementName(f, c) + ">"
  {
    if f.JsonX? {
      match c
      case 'b' => assert "</json:boolean>" == "</" + ("json:" + "boolean") + ">";
      case 'a' => assert "</json:array>" == "</" + ("json:" + "array") + ">";
      case 's' => assert "</json:string>" == "</" + ("json:" + "string") + ">";
      case 'o' => assert "</json:object>" == "</" + ("json:" + "object") + ">";
      case 'n' => assert "</json:number>" == "</" + ("json:" + "number") + ">";
      case _ => assert "</json:null>" == "</" + ("json:" + "null") + ">";
    }
  }

  /** An opening and a closing tag of the same type name the same element:
      the opening tag starts with `<` and the element name, followed by a
      space, the attributes or `>`; the closing tag is `</`, the element
      name, `>`. Both treat an unknown type character as null. */
  lemma {:induction false} TagsMatch(f: Format, c: char, name: string, attr: string)
    ensures CloseTag(f, c) == "</" + ElementName(f, c) + ">"
    ensures var o := OpenTag(f, c, name, attr); var n := |ElementName(f, c)|;
      && n + 1 < |o| && o[..n + 1] == "<" + ElementName(f, c)
      && (o[n + 1] == ' ' || o[n + 1] == '>' || (|attr| > 0 && o[n + 1] == attr[0]))
  {
    CloseTagName(f, c);
    TagNameStart(f, c, name);
    var t := TagName(f, c, name);
    var e := ElementName(f, c);
    var o := "<" + t + attr + ">";
    assert o[..|e| + 1] == "<" + t[..|e|];
    if |t| == |e| {
      assert o[|e| + 1..] == attr + ">";
    } else {
      assert o[|e| + 1] == t[|e|];
    }
  }

  /** Inserting the attributes into an opening tag at the head of a text. */
  lemma {:induction false} SpliceAttr(tab: string, t: string, attr: string, rest: string)
    ensures var p := tab + ("<" + t); var q := ">" + rest;
      && tab + ("<" + t + "" + ">") + rest == p + q
      && tab + ("<" + t + attr + ">") + rest == p + attr + q
      && (p + q)[..|p|] == p && (p + q)[|p|..] == q
  {
  }

  /** The children of an array or object, as `tag` renders them. */
  function Children(f: Format, show: Number -> string, d: nat, v: Value): string
    requires v.Arr? || v.Obj?
  {
    if v.Arr? then TagElements(f, show, d + 1, v.elems) else TagMembers(f, show, d + 1, v.members)
  }

  /** A block is its opening tag between the indentation and the rest. */
  lemma {:induction false} BlockLines(f: Format, c: char, tab: string, name: string, attr: string, children: string)
    ensures Block(f, c, tab, name, attr, children)
      == tab + OpenTag(f, c, name, attr) + ("\n" + children + tab + CloseTag(f, c) + "\n")
  {
  }

  /** An array or object: the attributes go into the first tag only. */
  lemma {:induction false} ContainerAttr(f: Format, show: Number -> string, d: nat, name: string, v: Value, attr: string)
    requires v.Arr? || v.Obj?
    ensures var p := Tabs(d) + ("<" + TagName(f, KindChar(v), name));
      var plain := Tag(f, show, d, name, v, "");
      && |p| <= |plain| && plain[..|p|] == p
      && Tag(f, show, d, name, v, attr) == p + attr + plain[|p|..]
  {
    var c := KindChar(v);
    var children := Children(f, show, d, v);
    assert Tag(f, show, d, name, v, "") == Block(f, c, Tabs(d), name, "", children);
    assert Tag(f, show, d, name, v, attr) == Block(f, c, Tabs(d), name, attr, children);
    BlockLines(f, c, Tabs(d), name, "", children);
    BlockLines(f, c, Tabs(d), name, attr, children);
    SpliceAttr(Tabs(d), TagName(f, c, name), attr, "\n" + children + Tabs(d) + CloseTag(f, c) + "\n");
  }

  /** A null is one self-closing tag on one line, after its indentation,
      ending in ` />`; the `attr` argument plays no part. */
  lemma {:induction false} NullSelfClosing(f: Format, show: Number -> string, d: nat, name: string, attr: string)
    requires Free(name, '\n')
    ensures var t := Tag(f, show, d, name, Null, attr);
      && |t| >= d + 4 && t[|t| - 4..] == " />\n" && t[d] == '<'
      && Free(t[..|t| - 1], '\n')
  {
    var o := OpenTag(f, '0', name, " /");
    var t := Tabs(d) + o + "\n";
    assert Tag(f, show, d, name, Null, attr) == t;
    OpenTagFree(f, '0', name, " /");
    FreeConcat(Tabs(d), o, '\n');
    assert t[..|t| - 1] == Tabs(d) + o;
    assert o[|o| - 3..] == " />";
    assert t[|t| - 4..] == o[|o| - 3..] + "\n";
    assert t[d] == o[0];
  }

  /** The root attributes appear once, in the root's opening tag: an array
      or object rendered with `attr` is the rendering without it with `attr`
      inserted just before the `>` of the first tag, so no child carries it;
      a scalar ignores `attr`. */
  lemma {:induction false} AttrAtRoot(f: Format, show: Number -> string, d: nat, name: string, v: Value, attr: string)
    ensures !(v.Arr? || v.Obj?) ==> Tag(f, show, d, name, v, attr) == Tag(f, show, d, name, v, "")
    ensures v.Arr? || v.Obj? ==>
      var p := Tabs(d) + ("<" + TagName(f, KindChar(v), name));
      var plain := Tag(f, show, d, name, v, "");
      && |p| <= |plain| && plain[..|p|] == p
      && Tag(f, show, d, name, v, attr) == p + attr + plain[|p|..]
  {
    if v.Arr? || v.Obj? {
      ContainerAttr(f, show, d, name, v, attr);
    }
  }

  // ----- Documents -----

  /** `ContainerAttr` at depth 0, where there is no indentation. */
  lemma {:induction false} RootAttr(f: Format, show: Number -> string, v: Value, attr: string)
    requires v.Arr? || v.Obj?
    ensures var p := "<" + TagName(f, KindChar(v), "");
      var plain := Tag(f, show, 0, "", v, "");
      && |p| <= |plain| && plain[..|p|] == p
      && Tag(f, show, 0, "", v, attr) == p + attr + plain[|p|..]
  {
    ContainerAttr(f, show, 0, "", v, attr);
    var p := "<" + TagName(f, KindChar(v), "");
    assert Tabs(0) + p == p;
  }

  lemma {:induction false} Prepend(h: string, x: string, p: string, a: string, rest: string)
    requires x == p + a + rest
    ensures h + x == h + p + a + rest
  {
  }

  /** `Object::xml`: the document is the chosen header, then the object's
      rendering without attributes, with the chosen root attributes inserted
      into its first tag (after `<json:object` or `<j son="o"`, see
      `RootTagNames`). */
  lemma {:induction false} ObjectDocument(f: Format, show: Number -> string, xmlTag: string, header: string, attrib: string,
                                          ms: seq<(string, Value)>)
    ensures var p := "<" + TagName(f, 'o', "");
      var plain := Tag(f, show, 0, "", Obj(ms), "");
      && |p| <= |plain| && plain[..|p|] == p
      && ObjectXml(f, show, xmlTag, header, attrib, ms)
         == ChosenHeader(xmlTag, header) + p + ChosenAttr(f, attrib) + plain[|p|..]
  {
    var a := ChosenAttr(f, attrib);
    RootAttr(f, show, Obj(ms), a);
    var plain := Tag(f, show, 0, "", Obj(ms), "");
    var p := "<" + TagName(f, 'o', "");
    Prepend(ChosenHeader(xmlTag, header), Tag(f, show, 0, "", Obj(ms), a), p, a, plain[|p|..]);
  }

  /** `Array::xml`, likewise. */
  lemma {:induction false} ArrayDocument(f: Format, show: Number -> string, xmlTag: string, header: string, attrib: string,
                                         vs: seq<Value>)
    ensures var p := "<" + TagName(f, 'a', "");
      var plain := Tag(f, show, 0, "", Arr(vs), "");
      && |p| <= |plain| && plain[..|p|] == p
      && ArrayXml(f, show, xmlTag, header, attrib, vs)
         == ChosenHeader(xmlTag, header) + p + ChosenAttr(f, attrib) + plain[|p|..]
  {
    var a := ChosenAttr(f, attrib);
    RootAttr(f, show, Arr(vs), a);
    var plain := Tag(f, show, 0, "", Arr(vs), "");
    var p := "<" + TagName(f, 'a', "");
    Prepend(ChosenHeader(xmlTag, header), Tag(f, show, 0, "", Arr(vs), a), p, a, plain[|p|..]);
  }

  /** The unnamed root elements' tag names. */
  lemma {:induction false} RootTagNames()
    ensures TagName(JsonX, 'o', "") == "json:object" && TagName(JXml, 'o', "") == "j son=\"o\""
    ensures TagName(JsonX, 'a', "") == "json:array" && TagName(JXml, 'a', "") == "j son=\"a\""
  {
  }

  // ----- Layout -----

  /** Position `p` begins a line of `t`. */
  predicate LineStart(t: string, p: int) {
    0 <= p <= |t| && (p == 0 || t[p - 1] == '\n')
  }

  /** `d` tabs stand at position `p` of `t`. */
  predicate TabsAt(t: string, p: int, d: nat) {
    0 <= p && p + d <= |t| && forall q :: p <= q < p + d ==> t[q] == '\t'
  }

  /** `t` is whole lines, each beginning with at least `d` tabs. */
  predicate Indented(t: string, d: nat) {
    && (|t| == 0 || t[|t| - 1] == '\n')
    && forall p :: 0 <= p < |t| && LineStart(t, p) ==> TabsAt(t, p, d)
  }

  /** No text in `v` (strings, keys, printed numbers) holds a newline. */
  predicate OneLine(show: Number -> string, v: Value)
    decreases v
  {
    match v
    case Str(str) => Free(str, '\n')
    case Num(n) => Free(show(n), '\n')
    case Arr(vs) => forall k :: 0 <= k < |vs| ==> OneLine(show, vs[k])
    case Obj(ms) => forall k :: 0 <= k < |ms| ==> MemberOneLine(show, ms[k])
    case _ => true
  }

  predicate MemberOneLine(show: Number -> string, m: (string, Value))
    decreases m
  {
    Free(m.0, '\n') && OneLine(show, m.1)
  }

  lemma {:induction false} FreeConcat(a: string, b: string, c: char)
    requires Free(a, c) && Free(b, c)
    ensures Free(a + b, c)
  {
    forall k | 0 <= k < |a + b|
      ensures (a + b)[k] != c
    {
      if k >= |a| {
        assert (a + b)[k] == b[k - |a|];
      }
    }
  }

  lemma {:induction false} EscapeStringFree(t: string)
    requires Free(t, '\n')
    ensures Free(EscapeString(t), '\n')
    decreases |t|
  {
    if |t| > 0 {
      EscapeStringFree(t[1..]);
      var e := if t[0] == '"' then "\\\"" else if t[0] == '\'' then "\\'" else [t[0]];
      FreeConcat(e, EscapeString(t[1..]), '\n');
    }
  }

  lemma {:induction false} EscapeTagFree(t: string)
    requires Free(t, '\n')
    ensures Free(EscapeTag(t), '\n')
    decreases |t|
  {
    if |t| > 0 {
      EscapeTagFree(t[1..]);
      var e := if t[0] == '<' then "&lt;" else if t[0] == '>' then "&gt;" else [t[0]];
      FreeConcat(e, EscapeTag(t[1..]), '\n');
    }
  }

  lemma {:induction false} JXmlNameFree(c: char, name: string)
    requires c != '\n' && Free(name, '\n')
    ensures Free(TagName(JXml, c, name), '\n')
  {
    EscapeStringFree(name);
    var head := "j son=\"" + [c];
    if name == "" {
      FreeConcat(head, "\"", '\n');
    } else {
      FreeConcat(head + ":", EscapeString(name), '\n');
      FreeConcat(head + ":" + EscapeString(name), "\"", '\n');
    }
  }

  lemma {:induction false} JsonXNameFree(c: char, name: string)
    requires Free(name, '\n')
    ensures Free(TagName(JsonX, c, name), '\n')
  {
    EscapeStringFree(name);
    JsonXTagName(c, name);
    if name != "" {
      FreeConcat(" name=\"", EscapeString(name), '\n');
      FreeConcat(" name=\"" + EscapeString(name), "\"", '\n');
    }
    FreeConcat("json:", TypeName(c), '\n');
    FreeConcat(ElementName(JsonX, c), NameAttr(name), '\n');
  }

  /** An opening tag is one line when its name and attributes are. */
  lemma {:induction false} OpenTagFree(f: Format, c: char, name: string, attr: string)
    requires c != '\n' && Free(name, '\n') && Free(attr, '\n')
    ensures Free(OpenTag(f, c, name, attr), '\n')
  {
    var t := TagName(f, c, name);
    if f.JXml? {
      JXmlNameFree(c, name);
    } else {
      JsonXNameFree(c, name);
    }
    FreeConcat("<", t, '\n');
    FreeConcat("<" + t, attr, '\n');
    FreeConcat("<" + t + attr, ">", '\n');
  }

  /** A closing tag is one line. */
  lemma {:induction false} CloseTagFree(f: Format, c: char)
    ensures Free(CloseTag(f, c), '\n')
  {
    CloseTagName(f, c);
    if f.JsonX? {
      FreeConcat("json:", TypeName(c), '\n');
    }
    FreeConcat("</", ElementName(f, c), '\n');
    FreeConcat("</" + ElementName(f, c), ">", '\n');
  }

  /** One line of text after `d` tabs. */
  lemma {:induction false} LineIndented(d: nat, x: string)
    requires Free(x, '\n')
    ensures Indented(Tabs(d) + x + "\n", d)
  {
    var t := Tabs(d) + x + "\n";
    forall q | 0 <= q < |t| - 1
      ensures t[q] != '\n'
    {
      if q < d {
        assert t[q] == '\t';
      } else {
        assert t[q] == x[q - d];
      }
    }
    assert TabsAt(t, 0, d);
  }

  lemma {:induction false} IndentedConcat(a: string, b: string, d: nat)
    requires Indented(a, d) && Indented(b, d)
    ensures Indented(a + b, d)
  {
    var t := a + b;
    forall p | 0 <= p < |t| && LineStart(t, p)
      ensures TabsAt(t, p, d)
    {
      if p < |a| {
        assert LineStart(a, p);
        assert TabsAt(a, p, d);
        forall q | p <= q < p + d
          ensures t[q] == '\t'
        {
          assert t[q] == a[q];
        }
      } else {
        var p' := p - |a|;
        if p' > 0 {
          assert t[p - 1] == b[p' - 1];
        }
        assert LineStart(b, p');
        assert TabsAt(b, p', d);
        forall q | p <= q < p + d
          ensures t[q] == '\t'
        {
          assert t[q] == b[q - |a|];
        }
      }
    }
    if |b| > 0 {
      assert t[|t| - 1] == b[|b| - 1];
    }
  }

  lemma {:induction false} IndentedDeeper(t: string, d: nat)
    requires Indented(t, d + 1)
    ensures Indented(t, d)
  {
    forall p | 0 <= p < |t| && LineStart(t, p)
      ensures TabsAt(t, p, d)
    {
      assert TabsAt(t, p, d + 1);
    }
  }

  /** Every line `tag` writes at depth `d` begins with `d` tabs, and the
      children of an array or object with `d + 1`, provided no name,
      string or number text brings its own newline. */
  lemma {:induction false} TagIndented(f: Format, show: Number -> string, d: nat, name: string, v: Value, attr: string)
    requires Free(name, '\n') && Free(attr, '\n') && OneLine(show, v)
    ensures Indented(Tag(f, show, d, name, v, attr), d)
    decreases v, 1
  {
    var c := KindChar(v);
    match v
    case Null =>
      OpenTagFree(f, c, name, " /");
      LineIndented(d, OpenTag(f, c, name, " /"));
    case Bool(b) =>
      BoolTextFree(b);
      LeafIndented(f, c, d, name, if b then "true" else "false");
    case Str(str) =>
      EscapeTagFree(str);
      LeafIndented(f, c, d, name, EscapeTag(str));
    case Num(n) =>
      LeafIndented(f, c, d, name, show(n));
    case Arr(vs) =>
      ElementsIndented(f, show, d + 1, vs);
      BlockIndented(f, c, d, name, attr, TagElements(f, show, d + 1, vs));
    case Obj(ms) =>
      MembersIndented(f, show, d + 1, ms);
      BlockIndented(f, c, d, name, attr, TagMembers(f, show, d + 1, ms));
  }

  lemma {:induction false} BoolTextFree(b: bool)
    ensures Free(if b then "true" else "false", '\n')
  {
  }

  /** A tag, a text and a tag on one indented line. */
  lemma {:induction false} TextLine(d: nat, o: string, text: string, cl: string)
    requires Free(o, '\n') && Free(text, '\n') && Free(cl, '\n')
    ensures Indented(Tabs(d) + o + text + cl + "\n", d)
  {
    FreeConcat(o, text, '\n');
    FreeConcat(o + text, cl, '\n');
    LineIndented(d, o + text + cl);
    assert Tabs(d) + (o + text + cl) + "\n" == Tabs(d) + o + text + cl + "\n";
  }

  /** The line of a scalar. */
  lemma {:induction false} LeafIndented(f: Format, c: char, d: nat, name: string, text: string)
    requires c != '\n' && Free(name, '\n') && Free(text, '\n')
    ensures Indented(Leaf(f, c, Tabs(d), name, text), d)
  {
    OpenTagFree(f, c, name, "");
    CloseTagFree(f, c);
    TextLine(d, OpenTag(f, c, name, ""), text, CloseTag(f, c));
  }

  /** A line, indented lines one level deeper, and a line. */
  lemma {:induction false} LinesAround(d: nat, o: string, children: string, cl: string)
    requires Free(o, '\n') && Free(cl, '\n') && Indented(children, d + 1)
    ensures Indented(Tabs(d) + o + "\n" + children + Tabs(d) + cl + "\n", d)
  {
    var first := Tabs(d) + o + "\n";
    var last := Tabs(d) + cl + "\n";
    LineIndented(d, o);
    LineIndented(d, cl);
    IndentedDeeper(children, d);
    IndentedConcat(first, children, d);
    IndentedConcat(first + children, last, d);
    assert first + children + last == Tabs(d) + o + "\n" + children + Tabs(d) + cl + "\n";
  }

  /** A block whose children are indented one level deeper. */
  lemma {:induction false} BlockIndented(f: Format, c: char, d: nat, name: string, attr: string, children: string)
    requires c != '\n' && Free(name, '\n') && Free(attr, '\n') && Indented(children, d + 1)
    ensures Indented(Block(f, c, Tabs(d), name, attr, children), d)
  {
    OpenTagFree(f, c, name, attr);
    CloseTagFree(f, c);
    LinesAround(d, OpenTag(f, c, name, attr), children, CloseTag(f, c));
  }

  lemma {:induction false} ElementsIndented(f: Format, show: Number -> string, d: nat, vs: seq<Value>)
    requires forall k :: 0 <= k < |vs| ==> OneLine(show, vs[k])
    ensures Indented(TagElements(f, show, d, vs), d)
    decreases vs
  {
    if |vs| > 0 {
      TagIndented(f, show, d, "", vs[0], "");
      ElementsIndented(f, show, d, vs[1..]);
      IndentedConcat(Tag(f, show, d, "", vs[0], ""), TagElements(f, show, d, vs[1..]), d);
    }
  }

  lemma {:induction false} MembersIndented(f: Format, show: Number -> string, d: nat, ms: seq<(string, Value)>)
    requires forall k :: 0 <= k < |ms| ==> MemberOneLine(show, ms[k])
    ensures Indented(TagMembers(f, show, d, ms), d)
    decreases ms
  {
    if |ms| > 0 {
      MemberIndented(f, show, d, ms[0]);
      MembersIndented(f, show, d, ms[1..]);
      IndentedConcat(TagMember(f, show, d, ms[0]), TagMembers(f, show, d, ms[1..]), d);
    }
  }

  /** Without `OneLine` the indentation fails: `escape_tag` passes a
      newline through, so in the string `a\nb` the `b` begins a line with
      no tab in front of it. */
  lemma {:induction false} NewlineBreaksIndent(f: Format, show: Number -> string, d: nat, name: string)
    requires 0 < d
    ensures !Indented(Tag(f, show, d, name, Str("a\nb"), ""), d)
  {
    var o := OpenTag(f, 's', name, "");
    var t := Tag(f, show, d, name, Str("a\nb"), "");
    assert EscapeTag("a\nb") == "a\nb" by {
      EscapeTagUnchanged("a\nb");
    }
    assert t == Tabs(d) + o + "a\nb" + CloseTag(f, 's') + "\n";
    var p := d + |o| + 2;
    assert t[p - 1] == '\n' && t[p] == 'b';
    assert LineStart(t, p) && !TabsAt(t, p, d);
  }

  lemma {:induction false} MemberIndented(f: Format, show: Number -> string, d: nat, m: (string, Value))
    requires MemberOneLine(show, m)
    ensures Indented(TagMember(f, show, d, m), d)
    decreases m
  {
    TagIndented(f, show, d, m.0, m.1, "");
  }
}
